=== FILE: README.md ===
# tBNB faucet — a Dafny model of the payout flow

The faucet pays test BNB to builders who prove a GitHub identity. Three
programs take part:

- **The verification service** gates every payout. It looks up the GitHub
  user and applies its gates in order: the lookup succeeded, the user has at
  least one public repository, the account is at least 30 days old, and no
  payout to the same GitHub user id in the last 24 hours. It keeps the
  `payout_history` table that the last gate reads.
- **The payout server** asks the verification service for a verdict. On a
  positive verdict it signs and submits one transfer from the treasury
  account, then asks the verification service to record the payout.
- **The chat bot's payout tool** finds the builder's wallet in a
  `bsc.address` file on GitHub (optionally in a repository named by URL).
  It then posts the payout request and turns the answer into a reply.

The model keeps each program's decisions and leaves out everything they
reach through a network, a clock or a key. Every call to GitHub, to the
chain, or between the two services is an input: the reply that call would
have produced. The current time is an input in whole seconds. Each
operation is therefore a total function of its inputs. The calls an
operation makes are returned as a trace, so ordering guarantees are
statements about that trace.

Modules:

- `Common`: `Option` and `Result`.
- `Text`: the Python string operations the code relies on (`strip`,
  `rstrip(chars)`, `split()`, `replace`, ASCII `lower`, `str(int)`).
- `PayoutStore`: the rate-limit table as a map from user id to last payout
  time.
- `Verifier`: `verify_builder` and the `/verify` endpoint.
- `Treasury`: `_derive_account`'s reading of the secret and the gates of
  `_send_tbnb`.
- `Coordinator`: `request_tbnb` and the record-payout URL.
- `RepoUrl`: `parse_github_repo_url`.
- `ChatBot`: `fetch_wallet_from_github` and `issue_tbnb`.
- `Faucet`: one request end to end, through both services and the store.
  The verification service's base URL is an input, and a call reaches it
  only when addressed to a path it serves. This is where the cooldown
  guarantee across two requests is proved, and where the record URL
  derived by the payout server is shown to decide whether it holds.

## Model

| member | source | states |
|---|---|---|
| PayoutStore.CanCollect | verification_service/main.py:77-106 | A user with no row, or with no id at all, may collect. A user with a row may collect exactly when 24 hours have passed since the stored time. A refusal carries a message starting "Rate limited"; an approval carries none. |
| PayoutStore.RateLimitMessage | verification_service/main.py:98-104 | The refusal message begins with "Rate limited". |
| PayoutStore.RecordPayout | verification_service/main.py:109-123 | After recording, the user's row holds the new time. The key set gains exactly that id, every other row is unchanged, and the table grows only if the id was new (primary key plus INSERT OR REPLACE). |
| PayoutStore.RecordLastWriteWins | verification_service/main.py:114-120 | Recording twice for one user is the same as recording only the second time. |
| PayoutStore.RecordIdempotent | verification_service/main.py:114-120 | Recording the same payout twice is the same as recording it once. |
| PayoutStore.CooldownAfterRecord | verification_service/main.py:92-106 | After a payout is recorded at t, the user is refused exactly when now < t + 24 h. This includes any clock reading before t. |
| PayoutStore.CanCollectReadsOneRow | verification_service/main.py:85-92 | The answer for a user depends only on that user's row: two stores that agree on it give the same answer. |
| PayoutStore.RecordLeavesOthersAlone | verification_service/main.py:114-120 | Recording a payout for one id never changes another id's answer. |
| Verifier.AgeDays | verification_service/main.py:175-178 | The account age is the floor of the elapsed time in days, as `timedelta.days` computes it. It is negative for a creation time in the future. |
| Verifier.Confidence | verification_service/main.py:206 | For at least one repository the confidence lies between 0.75 and 1.0. It is below 1.0 exactly for fewer than 6 repositories, where it equals 0.70 + 0.05 per repository. |
| Verifier.ConfidenceMonotone | verification_service/main.py:206 | More repositories never lower the confidence. |
| Verifier.VerifyBuilder | verification_service/main.py:126-215 | The verdict is positive exactly when the reference predicate `Eligible` holds: lookup 200, at least one repository, age unknown or at least 30 days, and outside the cooldown. A negative verdict has confidence 0. A positive one has the passed reason, the confidence `min(1.0, 0.7 + 0.05 n)` for n repositories, the user's id, the repository count, and the account age (unknown without a creation time). |
| Verifier.DenialReasons | verification_service/main.py:142-203 | Each failing gate, taken in gate order, gives its own reason and fields. Unreachable or non-200 lookups name the failure and report no id, count or age. No repositories reports the id, count 0 and no age. A too-new account reports the id, the count and its age. A cooldown refusal starts with "Rate limited" and reports the id, the count and the age as known. |
| Verifier.PassedReasonOnlyWhenVerified | verification_service/main.py:143-215 | The reason is "All verification checks passed" exactly when the verdict is positive. |
| Verifier.StoreReadOnlyAtCooldownGate | verification_service/main.py:142-193 | While a profile gate fails, the verdict does not depend on the store. |
| Verifier.NoReposShortCircuits | verification_service/main.py:161-172 | A user without public repositories is refused regardless of creation time, store and clock. |
| Verifier.LookupFailureShortCircuits | verification_service/main.py:136-155 | A failed lookup gives the same verdict whatever the store and clock, and reports no user id. |
| Verifier.MissingCreationSkipsAgeGate | verification_service/main.py:175-190 | Without `created_at`, the age is reported as unknown and only the cooldown decides. |
| Verifier.MissingIdNeverRateLimited | verification_service/main.py:158-160 | A reply without an id is never rate limited, since a NULL key matches no row. Such a reply is positive exactly when the profile gates pass. |
| Verifier.VerifyWallet | verification_service/main.py:230-238 | The endpoint answers 400 with its fixed detail exactly when the username is empty. Otherwise the verdict for the request's wallet is positive exactly when `Eligible` holds. |
| Text.StripChars | langchain_bot/chat.py:57 | `strip(chars)` returns a contiguous piece of the input. The piece neither begins nor ends with a stripped character, and only stripped characters surround it. |
| Text.RStripChars | mcp_server/main.py:95 | `rstrip(chars)` returns a prefix of the input that does not end in a character of the set. Everything it removes belongs to the set. |
| Text.SplitCountsWordStarts | mcp_server/main.py:39 | `split()` yields as many words as the string has word starts (a non-blank after a blank or at the beginning). |
| Treasury.DeriveAccount | mcp_server/main.py:36-41 | The secret is read as a recovery phrase exactly when, with commas read as spaces, it has at least 12 words. The phrase is then the normalised secret; otherwise the key is the stripped secret. |
| Treasury.StripKeepsWordStarts | mcp_server/main.py:38-39 | Stripping surrounding whitespace never changes the word count. |
| Treasury.NonEmptyTokensTestIsRedundant | mcp_server/main.py:39 | `all(normalized.split())` always holds. |
| Treasury.CommaSeparatedPhrase | mcp_server/main.py:38-40 | Twelve comma-separated words are read as a phrase that contains no comma. |
| Treasury.HexKeyIsRawKey | mcp_server/main.py:39-41 | A secret without whitespace or commas, such as a hex key, is read as a raw key. |
| Treasury.SendTbnb | mcp_server/main.py:101-127 | A transfer succeeds only with a positive value, a successful signature, the submitted hash and receipt status 1; conversely, when every step answers and the receipt status is 1 it returns the submitted hash. A success performed all six steps in order. A failed checksum, nonce or gas-price step ends the transfer with that step's own error, after exactly the steps up to it. It succeeds exactly when the receipt was awaited and its status is 1. Signing happens only after the checksum, nonce and gas price answered and the value was positive, and submission only after a successful signature. No step happens twice. |
| Treasury.NonPositiveRefusedBeforeSigning | mcp_server/main.py:103-106 | A non-positive value fails after the checksum step alone, with the positivity error once the address checksums. |
| Treasury.FailedSigningSubmitsNothing | mcp_server/main.py:120-121 | A signing error ends the transfer with that error, right after the signing step and before any submission. |
| Treasury.FailedReceiptIsError | mcp_server/main.py:121-125 | A mined transaction with a status other than 1 is an error although it was submitted. |
| Coordinator.RecordPayoutUrlAsWritten | mcp_server/main.py:95 | The derived URL, as written, ends in `/record-payout`. |
| Coordinator.RecordPayoutUrlAsWrittenAgreesIff | mcp_server/main.py:95 | On a URL ending in `/verify`, the as-written derivation agrees with suffix replacement exactly when the text before `/verify` does not end in one of the characters `/verify`. |
| Coordinator.RecordPayoutUrlAsWrittenEatsPath | mcp_server/main.py:95 | `http://localhost:8080/api/verify` yields `http://localhost:8080/ap/record-payout`. |
| Coordinator.RecordPayoutUrl | mcp_server/main.py:95 | The corrected derivation ends in `/record-payout`. |
| Coordinator.RecordPayoutUrlReplacesSuffix | mcp_server/main.py:95 | The corrected derivation replaces exactly the `/verify` suffix by `/record-payout`. |
| Coordinator.RecordPayoutUrlKeepsPath | mcp_server/main.py:95 | The corrected derivation keeps an `/api` prefix. |
| Coordinator.DefaultRecordPayoutUrl | mcp_server/main.py:20-22 | Both derivations turn the default verification URL into `http://localhost:8080/record-payout`. |
| Coordinator.RequestTbnb | mcp_server/main.py:136-168 | The first call is always the verification call with the request's fields. The answer is approved exactly when the verdict is positive and the transfer succeeded, and then carries the hash and the verdict. |
| Coordinator.VerifyFailureIsInternalError | mcp_server/main.py:74-87 | A verification call that raises is not caught by the handler: the answer is the framework's 500 `Internal Server Error`, and the verification call is the only side effect. |
| Coordinator.Recording | mcp_server/main.py:152-160 | After a paid transfer, the tail of the trace holds a record call exactly when the user id is truthy. That call comes first, for that id, at the record URL derived as line 95 writes it. No transfer or chain step happens in the tail. |
| Coordinator.TransferOnlyAfterVerdict | mcp_server/main.py:140-149 | The transfer and its chain steps happen only after a positive verdict. The transfer is started once, right after the verification call, with the request's wallet and the configured amount. |
| Coordinator.PositiveVerdictTransfersAndRecords | mcp_server/main.py:138-155 | A positive verdict always puts the transfer of the configured amount to the request's wallet right after the verification call. An approved payout for a truthy id always makes its record call. |
| Coordinator.RecordOnlyAfterPayment | mcp_server/main.py:149-160 | A record call happens at most once, only after a transfer that returned a hash, only for a truthy id, and with that id at the record URL derived as line 95 writes it. |
| Coordinator.SubmitAtMostOnce | mcp_server/main.py:101-128 | The signed transaction is submitted at most once per request. |
| Coordinator.DeniedMakesNoTransfer | mcp_server/main.py:140-145 | A negative verdict gives 403 "Verification failed: " plus the reason, with no call after verification. |
| Coordinator.TransferFailureMakesNoRecord | mcp_server/main.py:149-160 | A failed transfer gives 500 with its error text, and no record call is made. |
| Coordinator.RecordFailureIsSwallowed | mcp_server/main.py:154-158 | A failed recording leaves the client's answer unchanged. |
| Coordinator.FalsyIdIsNotRecorded | mcp_server/main.py:152-153 | A verdict whose id is missing or 0 is never recorded. |
| RepoUrl.Normalize | langchain_bot/chat.py:57 | The normalised URL neither begins with whitespace nor ends with a slash. |
| RepoUrl.MatchAtCharacterized | langchain_bot/chat.py:61 | Pattern 1 at a position yields (owner, repo) exactly when the host, a non-empty slash-free owner, a slash and a maximal non-empty slash-free repository name stand there. |
| RepoUrl.FirstMatch | langchain_bot/chat.py:65-68 | The search returns the leftmost position where pattern 1 matches, and none when it matches nowhere. |
| RepoUrl.WholeMatch | langchain_bot/chat.py:62 | Pattern 2 yields a pair exactly shaped `owner/repo` with both parts non-empty and slash-free, and none when no such reading exists. |
| RepoUrl.Parse | langchain_bot/chat.py:46-70 | Any parts returned are non-empty and contain no slash. |
| RepoUrl.ParsePrefersLeftmostHostMatch | langchain_bot/chat.py:60-68 | When pattern 1 first matches at some position, the result is that match's groups. |
| RepoUrl.ParseFallsBackToWholeString | langchain_bot/chat.py:62-70 | When pattern 1 matches nowhere, the result is (o, r) exactly when the normalised string reads as `o/r`. |
| RepoUrl.ParseIgnoresLeadingWhitespace | langchain_bot/chat.py:57 | Leading whitespace never changes the result. |
| RepoUrl.ParseIgnoresTrailingWhitespace | langchain_bot/chat.py:57 | Trailing whitespace never changes the result. |
| RepoUrl.ParseIgnoresTrailingSlashes | langchain_bot/chat.py:57 | Trailing slashes after a non-blank end never change the result. |
| RepoUrl.ParseOwnerRepo | langchain_bot/chat.py:62 | `owner/repo` parses back to its two parts. |
| RepoUrl.ParseGithubUrl | langchain_bot/chat.py:50-61 | `https://github.com/owner/repo`, with any path after it, parses to (owner, repo). |
| ChatBot.WalletFromContent | langchain_bot/chat.py:117-119 | A wallet is returned exactly when the stripped content has the wallet shape: it starts with `0x`, is 42 characters long, and does not end in whitespace. The wallet is the stripped content. |
| ChatBot.PaddedWalletAccepted | langchain_bot/chat.py:117-119 | Any wallet-shaped text padded with whitespace is read back exactly. |
| ChatBot.NoHexCheck | langchain_bot/chat.py:118 | `0x` followed by forty `z` is accepted, since no hex digits are checked. |
| ChatBot.ResolveTarget | langchain_bot/chat.py:93-103 | A repository is targeted exactly when a non-empty URL parses. The owner then equals the URL's owner case-insensitively, and stays the given username exactly when the two agree case-insensitively. Otherwise the username is kept. |
| ChatBot.FileWallet | langchain_bot/chat.py:113-119 | A 200 reply with base64 encoding yields exactly the wallet its content holds, if the stripped content has the wallet shape; any other reply yields none. |
| ChatBot.FetchLatest | langchain_bot/chat.py:121-152 | The fallback first lists the owner's repositories. It reads a file only when the listing passed `raise_for_status` and was non-empty, and then reads the first listed repository's file. The wallet is that file's wallet when it was read, and none otherwise. |
| ChatBot.FetchFrom | langchain_bot/chat.py:105-154 | Between one and three GitHub calls are made, all for the target's owner. The first call reads the named repository's file exactly when a repository is targeted. The listing happens exactly when no repository is targeted, or its file was fetched without yielding a wallet. The wallet is exactly what the last call read: none after a listing, and the wallet of the file read last otherwise (the named repository's if it was the only call, the latest repository's if not). A named repository whose file was fetched but yields no wallet is followed by exactly the fallback search, whose wallet is the result. |
| ChatBot.FetchWallet | langchain_bot/chat.py:73-154 | Every call goes to the owner settled from the username and URL, and the search starts with the named repository's file exactly when the URL named one. Without a URL the search is the fallback alone. Any wallet returned has the wallet shape. |
| ChatBot.EmptySpecificFileFallsBack | langchain_bot/chat.py:106-150 | When the URL names a repository whose address file is fetched but yields no wallet, the search goes on to the settled owner's most recent repository: the calls are that file read followed by the fallback's calls, and the wallet is the fallback's. |
| ChatBot.FallbackFindsWallet | langchain_bot/chat.py:121-150 | Without a URL, a non-empty listing leads to exactly two calls, and the wallet is the one the latest repository's file holds. |
| ChatBot.SpecificRepoWins | langchain_bot/chat.py:106-119 | A wallet found in the named repository is returned after that single call. |
| ChatBot.RaisedSpecificFileHasNoFallback | langchain_bot/chat.py:107-154 | If reading the named repository's file raises, the result is no wallet, with no further call. |
| ChatBot.UnparsedUrlIsIgnored | langchain_bot/chat.py:101-103 | A URL that does not parse behaves as no URL, and the search starts by listing the given user's repositories. |
| ChatBot.UrlOwnerOverridesUsername | langchain_bot/chat.py:97-123 | When the URL's owner differs case-insensitively from the username, every request, including the fallback listing, goes to the URL's owner. |
| ChatBot.NoRecentRepositoryNoWallet | langchain_bot/chat.py:128-132 | A listing that raises, fails `raise_for_status` or is empty yields no wallet after that single call. |
| ChatBot.Report | langchain_bot/chat.py:183-230 | The GitHub calls are those of the search. A payload is posted exactly when a wallet was found, and it carries the builder id (or "anonymous"), the wallet, the original username and the channel. The reply is an approval exactly when a wallet was found and the post succeeded. |
| ChatBot.IssueTbnb | langchain_bot/chat.py:157-230 | An empty username gives the fixed reply with no call. Otherwise the GitHub calls are those of the wallet search. A payload is posted exactly when the username is non-empty and a wallet was found; it carries the builder id (or "anonymous"), the wallet, the original username and the channel ("discord" when omitted). The reply is an approval exactly when a payload was posted and the post succeeded. |
| ChatBot.UsernameRequiredOnlyForEmpty | langchain_bot/chat.py:180-181 | The "github_username is required" reply occurs exactly for an empty username. |
| ChatBot.GivenUrlIsNamed | langchain_bot/chat.py:185-191 | When a non-empty URL was given and no wallet was found, the reply names that URL, even if it did not parse. |
| ChatBot.OmittedArgumentsDefault | langchain_bot/chat.py:158-178 | A run without a channel or builder id posts for the "discord" channel as "anonymous". |
| ChatBot.ApprovedReplyDefaults | langchain_bot/chat.py:225-230 | For any wallet, hash and reason: a missing hash reads exactly as if the server had sent `unknown`, and a missing reason as if it had sent `N/A`; with both missing the reply is the fixed text around the wallet. |
| Faucet.VerifyReplyOf | mcp_server/main.py:76-88 | The payout server sees a verdict exactly when the call was delivered to a path the service serves and the service gave one. A 400, a 404 or a lost call raises. |
| Faucet.RecordReplyOf | mcp_server/main.py:91-98 | The recording counts as successful for the payout server exactly when it was delivered to the service's record endpoint and the answer came back. |
| Faucet.Serve | verification_service/main.py:245-249 | Across one request, the store changes only after an approved payout for a truthy id, whose record call is in the trace, is addressed to the service's record endpoint and reached it. The store never loses a key. |
| Faucet.PaidAndRecorded | verification_service/main.py:245-249 | A paid request whose record call reached the service's record endpoint stores the payout time for the paid user. |
| Faucet.NoSecondPayoutWithinCooldown | verification_service/main.py:92-106 | When the record call is addressed to the service's record endpoint: after a recorded payout at t, a request for the same GitHub id at any time before t + 24 h (a clock reading before t included) is refused and makes no transfer, whatever its wallet or username. |
| Faucet.RecordRoutedIff | mcp_server/main.py:95 | For a service at `base` and the verification URL `base/verify`, the record call reaches the service exactly when the as-written derivation agrees with the corrected one, that is, exactly when `base` does not end in one of the characters of `/verify`. |
| Faucet.DefaultDeploymentRouted | mcp_server/main.py:20-22 | With the default verification URL and the service at `http://localhost:8080`, both calls reach the service. |
| Faucet.ApiPrefixPaysTwice | mcp_server/main.py:95 | With the service under `/api`, the verification call is routed but the record call is not: the store is left as it was, and an approved request replayed at once is approved again. |
| Faucet.UnrecordedLeavesStore | mcp_server/main.py:154-158 | A record call that never reached the service, or was addressed to a path it does not serve, leaves the store as it was. |
| Faucet.LostAckStillRecords | mcp_server/main.py:154-158 | A lost acknowledgement records the payout, while the client sees the same as for a lost recording. |
| Faucet.RefusedLeavesStore | mcp_server/main.py:140-160 | A refused request never changes the store. |

## Left out

- Network I/O is not modelled. The GitHub REST calls, the posts between the services, the post to the payout server, timeouts and JSON decoding are inputs: the reply each call would produce.
- SQLite is not modelled. Connection handling and table creation are out; the `payout_history` table is a map from id to time, which its primary key and INSERT OR REPLACE make it.
- The wall clock is not modelled. `datetime.now()`, time zones and ISO-8601 parsing are out; times are integer seconds passed in, and `timedelta.days` is floor division by 86400.
- PayoutStore.RateLimitMessage: only the "Rate limited" prefix is promised. The hour figures round half up on the exact value, which may differ from Python's `.1f` formatting of a float.
- Verifier.Confidence: the confidence is exact hundredths, not the float `0.7 + 0.05 * n`.
- Cryptography and the chain are not modelled: EIP-55 checksumming, `to_wei`, BIP-39 phrase and key derivation, signing, RPC submission and receipt waiting. Each chain step is an input that answers or raises.
- Treasury.DeriveAccount: the model only decides whether the secret is read as a phrase or as a key. Whether `eth_account` then accepts it is not modelled.
- Concurrency is not modelled. `asyncio.to_thread`, parallel requests and the missing per-user lock fall outside it; each request is one step from one store to the next.
- base64 decoding of the `bsc.address` content is not modelled; the content arrives decoded. Undecodable content or a missing `content` key raises an exception that the bot's function does not catch; that path is not modelled.
- ChatBot.ResolveTarget: `lower()` is modelled for ASCII letters only; Python lowers all of Unicode.
- The record and GitHub replies are well typed in the model. A JSON `null` for `public_repos`, a non-integer id, a non-string `detail`, or a `verification` field that is not an object are not modelled.
- The reason fallback "Unknown verification failure" is not modelled, because every verdict the service returns carries a reason.
- The request id is an input: UUID generation is not modelled.
- Faucet.RecordReplyOf: a path the service does not serve raises with the fixed text "404 Not Found"; the exact text of the HTTP client's exception, which only reaches the logged warning, is not modelled.
- FastAPI routing, the health endpoints, Pydantic validation, the LangChain agent and its prompt loop, and the bot's command-line entry point are not modelled.
- Backward clock adjustments: the code refuses a user whose stored time lies in the future (the elapsed time is negative, which is below 24 hours), so a clock moved back prolongs the cooldown rather than ending it early. The model follows the code (`PayoutStore.CooldownAfterRecord`). Only a clock moved forward can re-enable early collection.

## Findings

| source | as written | input that shows it | evidently intended | confidence | as-written member | corrected member |
|---|---|---|---|---|---|---|
| mcp_server/main.py:95 | `VERIFICATION_URL.rstrip('/verify')` removes every trailing character in the set {`/`,`v`,`e`,`r`,`i`,`f`,`y`}, not the suffix `/verify` | `VERIFICATION_SERVICE_URL=http://localhost:8080/api/verify` gives `http://localhost:8080/ap/record-payout`, so recordings are posted to a path that does not exist and the cooldown is never written | remove the `/verify` suffix once: `http://localhost:8080/api/record-payout` | not executed | Coordinator.RecordPayoutUrlAsWritten (used by Coordinator.RequestTbnb; shown by Coordinator.RecordPayoutUrlAsWrittenEatsPath, Coordinator.RecordPayoutUrlAsWrittenAgreesIff and Faucet.ApiPrefixPaysTwice) | Coordinator.RecordPayoutUrl (proved by Coordinator.RecordPayoutUrlReplacesSuffix; Faucet.RecordRoutedIff shows the record call reaches the service exactly where the two derivations agree) |

=== FILE: chatbot.dfy ===
/**
 The chat bot's payout tool: where it looks for the builder's wallet
 (`fetch_wallet_from_github`, with the repository-URL override and the shape
 check on the `bsc.address` file) and how it turns the payout server's reply
 into the text it shows (`issue_tbnb`). Every GitHub request and the post to
 the payout server are inputs: the reply each one would have produced.
 */
module ChatBot {
  import opened Common
  import opened Text
  import opened RepoUrl

  const WalletPrefix: string := "0x"
  const WalletLength: nat := 42
  const AddressFileEncoding: string := "base64"

  /** The shape the bot accepts as a wallet: 42 characters beginning with
      `0x`, not ending in whitespace. Nothing checks that the rest is hex. */
  predicate WalletShape(w: string) {
    StartsWith(w, WalletPrefix) && |w| == WalletLength && w[|w| - 1] !in Whitespace
  }

  /** The check on the decoded `bsc.address` content: the stripped content is
      the wallet when it has the wallet's shape. */
  function WalletFromContent(content: string): (w: Option<string>)
    ensures w.Some? ==> WalletShape(w.value) && w.value == Strip(content)
    ensures w.None? ==> !WalletShape(Strip(content))
  {
    var wallet := Strip(content);
    if StartsWith(wallet, WalletPrefix) && |wallet| == WalletLength then Some(wallet) else None
  }

  /** Any wallet-shaped text padded with whitespace on either side is read
      back exactly. */
  lemma PaddedWalletAccepted(before: string, w: string, after: string)
    requires Within(before, Whitespace) && Within(after, Whitespace)
    requires WalletShape(w)
    ensures WalletFromContent(before + w + after) == Some(w)
  {
    assert w[0] == '0';
    StripCharsPadded(before, w, after, Whitespace);
  }

  /** The shape check does not look at the digits: `0x` followed by forty
      `z` is accepted. */
  lemma NoHexCheck()
    ensures WalletFromContent("0x" + seq(40, _ => 'z')).Some?
  {
    var w := "0x" + seq(40, _ => 'z');
    assert w[41] == 'z';
    PaddedWalletAccepted([], w, []);
    assert [] + w + [] == w;
  }

  /** A `GET /repos/{owner}/{repo}/contents/bsc.address` reply: the request
      raised, or a status with the JSON body's `encoding` (if any) and the
      decoded `content`. */
  datatype FileReply =
    | FileRaised(error: string)
    | FileFetched(status: int, encoding: Option<string>, content: string)

  /** A `GET /users/{owner}/repos?sort=updated&per_page=1` reply: the request
      raised, or a status with the names of the listed repositories. */
  datatype ReposReply = ReposRaised(error: string) | ReposListed(status: int, names: seq<string>)

  /** The replies GitHub would give to the three requests the bot can make,
      in the order it makes them. */
  datatype GitHubReplies = GitHubReplies(specificFile: FileReply, repos: ReposReply, latestFile: FileReply)

  datatype GitHubCall = GetAddressFile(owner: string, repo: string) | ListRecentRepos(owner: string)

  /** Where to look: the owner to ask about, and the repository named by the
      URL when it parsed. */
  datatype Target = Target(owner: string, repo: Option<string>)

  datatype Fetched = Fetched(wallet: Option<string>, calls: seq<GitHubCall>)

  /** Python truthiness of an optional string argument. */
  predicate Given(s: Option<string>) {
    s.Some? && s.value != []
  }

  /** The owner and repository `fetch_wallet_from_github` settles on: a
      repository URL that parses names the repository and, unless its owner
      equals the given username case-insensitively, the owner too. */
  function ResolveTarget(username: string, repoUrl: Option<string>): (t: Target)
    ensures t.repo.None? <==> !Given(repoUrl) || Parse(repoUrl.value).None?
    ensures t.repo.None? ==> t.owner == username
    ensures t.repo.Some? ==>
              var (owner, repo) := Parse(repoUrl.value).value;
              && t.repo.value == repo
              && LowerAscii(t.owner) == LowerAscii(owner)
              && (t.owner == username <==> LowerAscii(username) == LowerAscii(owner))
  {
    if !Given(repoUrl) then Target(username, None)
    else
      match Parse(repoUrl.value)
      case None => Target(username, None)
      case Some((owner, repo)) =>
        if LowerAscii(owner) != LowerAscii(username) then Target(owner, Some(repo))
        else Target(username, Some(repo))
  }

  /** The wallet an address-file reply yields: only a 200 reply whose body
      says `base64` and whose content has the wallet's shape. */
  function FileWallet(f: FileReply): (w: Option<string>)
    ensures w.Some? ==> f.FileFetched? && f.status == 200 && f.encoding == Some(AddressFileEncoding)
                        && w == WalletFromContent(f.content)
    ensures w.Some? ==> WalletShape(w.value)
    ensures f.FileFetched? && f.status == 200 && f.encoding == Some(AddressFileEncoding) ==>
              w == WalletFromContent(f.content)
  {
    if f.FileFetched? && f.status == 200 && f.encoding == Some(AddressFileEncoding) then
      WalletFromContent(f.content)
    else
      None
  }

  /** `raise_for_status`: a 4xx or 5xx status raises. */
  predicate ErrorStatus(status: int) {
    400 <= status < 600
  }

  /** The fallback of `fetch_wallet_from_github`: list the owner's most
      recently updated repository and read its address file. */
  function FetchLatest(owner: string, gh: GitHubReplies): (f: Fetched)
    ensures 1 <= |f.calls| <= 2 && f.calls[0] == ListRecentRepos(owner)
    ensures forall i | 0 <= i < |f.calls| :: f.calls[i].owner == owner
    ensures f.wallet.Some? ==> f.wallet == FileWallet(gh.latestFile)
    ensures |f.calls| == 2 <==> gh.repos.ReposListed? && !ErrorStatus(gh.repos.status) && gh.repos.names != []
    ensures |f.calls| == 2 ==> f.calls[1] == GetAddressFile(owner, gh.repos.names[0])
    ensures f.wallet == (if |f.calls| == 2 then FileWallet(gh.latestFile) else None)
  {
    var listed := [ListRecentRepos(owner)];
    match gh.repos
    case ReposRaised(_) => Fetched(None, listed)
    case ReposListed(status, names) =>
      if ErrorStatus(status) || names == [] then Fetched(None, listed)
      else Fetched(FileWallet(gh.latestFile), listed + [GetAddressFile(owner, names[0])])
  }

  /** The search of `fetch_wallet_from_github` once the target is settled:
      the named repository's address file first, if there is one; otherwise,
      or when that file yields no wallet, the address file of the owner's
      most recently updated repository. A request that raises ends the search
      with no wallet. */
  function FetchFrom(t: Target, gh: GitHubReplies): (f: Fetched)
    ensures 1 <= |f.calls| <= 3
    ensures forall i | 0 <= i < |f.calls| :: f.calls[i].owner == t.owner
    ensures f.calls[0].GetAddressFile? <==> t.repo.Some?
    ensures f.calls[0].GetAddressFile? ==> f.calls[0].repo == t.repo.value
    ensures f.wallet.Some? ==> WalletShape(f.wallet.value)
    ensures f.wallet.Some? ==>
              f.wallet == FileWallet(gh.specificFile) || f.wallet == FileWallet(gh.latestFile)
    ensures ListRecentRepos(t.owner) in f.calls <==>
              t.repo.None? || (gh.specificFile.FileFetched? && FileWallet(gh.specificFile).None?)
    ensures f.calls[|f.calls| - 1].ListRecentRepos? ==> f.wallet.None?
    ensures f.calls[|f.calls| - 1].GetAddressFile? ==>
              f.wallet == FileWallet(if |f.calls| == 1 then gh.specificFile else gh.latestFile)
    ensures t.repo.Some? && gh.specificFile.FileFetched? && FileWallet(gh.specificFile).None? ==>
              f == Fetched(FetchLatest(t.owner, gh).wallet,
                           [GetAddressFile(t.owner, t.repo.value)] + FetchLatest(t.owner, gh).calls)
  {
    match t.repo
    case None => FetchLatest(t.owner, gh)
    case Some(repo) =>
      var first := GetAddressFile(t.owner, repo);
      if gh.specificFile.FileRaised? then Fetched(None, [first])
      else if FileWallet(gh.specificFile).Some? then Fetched(FileWallet(gh.specificFile), [first])
      else
        var latest := FetchLatest(t.owner, gh);
        assert latest.calls[0] == ListRecentRepos(t.owner);
        Fetched(latest.wallet, [first] + latest.calls)
  }

  /** `fetch_wallet_from_github`: settle the owner and repository from the
      username and the URL, then search. */
  function FetchWallet(username: string, repoUrl: Option<string>, gh: GitHubReplies): (f: Fetched)
    ensures 1 <= |f.calls| <= 3
    ensures forall i | 0 <= i < |f.calls| :: f.calls[i].owner == ResolveTarget(username, repoUrl).owner
    ensures f.calls[0].GetAddressFile? <==> ResolveTarget(username, repoUrl).repo.Some?
    ensures f.wallet.Some? ==> WalletShape(f.wallet.value)
    ensures !Given(repoUrl) ==> f == FetchLatest(username, gh)
  {
    FetchFrom(ResolveTarget(username, repoUrl), gh)
  }

  /** Without a URL, a non-empty listing leads to the first listed
      repository's address file, and its wallet is the result. */
  lemma FallbackFindsWallet(username: string, gh: GitHubReplies)
    requires gh.repos.ReposListed? && !ErrorStatus(gh.repos.status) && gh.repos.names != []
    ensures FetchWallet(username, None, gh).calls
            == [ListRecentRepos(username), GetAddressFile(username, gh.repos.names[0])]
    ensures FetchWallet(username, None, gh).wallet == FileWallet(gh.latestFile)
  {
  }

  /** A wallet found in the named repository is used without looking any
      further. */
  lemma SpecificRepoWins(username: string, url: string, gh: GitHubReplies)
    requires url != [] && Parse(url).Some? && FileWallet(gh.specificFile).Some?
    ensures FetchWallet(username, Some(url), gh).wallet == FileWallet(gh.specificFile)
    ensures |FetchWallet(username, Some(url), gh).calls| == 1
  {
  }

  /** A named repository whose address file yields no wallet sends the search
      on to the owner's most recently updated repository. */
  lemma EmptySpecificFileFallsBack(username: string, url: string, gh: GitHubReplies)
    requires url != [] && Parse(url).Some?
    requires gh.specificFile.FileFetched? && FileWallet(gh.specificFile).None?
    ensures FetchWallet(username, Some(url), gh).wallet
            == FetchLatest(ResolveTarget(username, Some(url)).owner, gh).wallet
    ensures FetchWallet(username, Some(url), gh).calls
            == [GetAddressFile(ResolveTarget(username, Some(url)).owner, Parse(url).value.1)]
               + FetchLatest(ResolveTarget(username, Some(url)).owner, gh).calls
  {
  }

  /** A request for the named repository's file that raises ends the search:
      the most recent repository is not tried. */
  lemma RaisedSpecificFileHasNoFallback(username: string, url: string, gh: GitHubReplies)
    requires url != [] && Parse(url).Some? && gh.specificFile.FileRaised?
    ensures FetchWallet(username, Some(url), gh) ==
              Fetched(None, [GetAddressFile(ResolveTarget(username, Some(url)).owner, Parse(url).value.1)])
  {
  }

  /** A URL that does not parse is ignored: the search starts at the given
      user's most recent repository. */
  lemma UnparsedUrlIsIgnored(username: string, url: string, gh: GitHubReplies)
    requires Parse(url).None?
    ensures FetchWallet(username, Some(url), gh) == FetchWallet(username, None, gh)
    ensures FetchWallet(username, Some(url), gh).calls[0] == ListRecentRepos(username)
  {
  }

  /** A URL owned by someone else redirects every request to that owner, even
      the fallback listing. */
  lemma UrlOwnerOverridesUsername(username: string, url: string, gh: GitHubReplies)
    requires url != [] && Parse(url).Some?
    requires LowerAscii(Parse(url).value.0) != LowerAscii(username)
    ensures forall i | 0 <= i < |FetchWallet(username, Some(url), gh).calls| ::
              FetchWallet(username, Some(url), gh).calls[i].owner == Parse(url).value.0
  {
  }

  /** A listing that fails its status check, or lists nothing, yields no
      wallet. */
  lemma NoRecentRepositoryNoWallet(username: string, gh: GitHubReplies)
    requires gh.repos.ReposRaised? || ErrorStatus(gh.repos.status) || gh.repos.names == []
    ensures FetchWallet(username, None, gh) == Fetched(None, [ListRecentRepos(username)])
  {
  }

  /** What the bot posts to the payout server. */
  datatype Payload = Payload(builderId: string, wallet: string, username: string, channel: string)

  /** The payout server's reply to the post: the request raised (with the
      `detail` field of the error body, when there is one), or it succeeded
      with the body's `tx_hash` and `verification.reason`, when present. */
  datatype PostReply =
    | PostFailed(error: string, detail: Option<string>)
    | PostOk(txHash: Option<string>, reason: Option<string>)

  /** One run of the tool: the text shown, the GitHub requests made and the
      payload posted, if any. */
  datatype ToolRun = ToolRun(reply: string, github: seq<GitHubCall>, posted: Option<Payload>)

  // The replies below split off a short head so that the verifier can read
  // their first character without unfolding the whole literal.
  const UsernameRequiredReply: string := "github_username" + " is required for verification."
  const AnonymousBuilder: string := "anonymous"
  /** The channel when the caller names none. */
  const DefaultChannel: string := "discord"
  const FailedPrefix: string := "Failed to process payout: "
  const ApprovedPrefix: string := "Payout approved! Sent tBNB to "

  function NoWalletInRepoReply(url: string): string {
    "Could not find " + "wallet address in the specified repository (" + url + "). "
    + "Please ensure you have a file named 'bsc.address' in the root directory "
    + "of that repository containing your BSC wallet address."
  }

  const NoWalletReply: string :=
    "Could not find " + "wallet address in your GitHub repository. "
    + "Please ensure you have a file named 'bsc.address' in the root directory "
    + "of one of your public repositories containing your BSC wallet address. "
    + "You can also provide a specific repository URL using the repo_url parameter."

  function ApprovedReply(wallet: string, txHash: Option<string>, reason: Option<string>): string {
    ApprovedPrefix + wallet + ". Transaction hash: " + txHash.GetOr("unknown")
    + ". Verification: " + reason.GetOr("N/A")
  }

  /** What `issue_tbnb` does once the wallet search is over: post the payout
      request under the original username if a wallet was found, and report
      the outcome. */
  function Report(username: string, repoUrl: Option<string>, builderId: Option<string>,
                  channel: string, fetched: Fetched, post: PostReply): (run: ToolRun)
    ensures run.github == fetched.calls
    ensures run.posted.Some? <==> fetched.wallet.Some?
    ensures run.posted.Some? ==>
              run.posted.value == Payload(if Given(builderId) then builderId.value else AnonymousBuilder,
                                          fetched.wallet.value, username, channel)
    ensures StartsWith(run.reply, ApprovedPrefix) <==> fetched.wallet.Some? && post.PostOk?
    ensures |run.reply| > 0 && run.reply[0] != UsernameRequiredReply[0]
  {
    assert ApprovedPrefix[0] == 'P' && UsernameRequiredReply[0] == 'g';
    var builder := if Given(builderId) then builderId.value else AnonymousBuilder;
    match fetched.wallet
    case None =>
      var reply := if Given(repoUrl) then NoWalletInRepoReply(repoUrl.value) else NoWalletReply;
      assert reply[0] == 'C';
      ToolRun(reply, fetched.calls, None)
    case Some(wallet) =>
      var payload := Payload(builder, wallet, username, channel);
      match post
      case PostFailed(error, detail) =>
        var reply := FailedPrefix + detail.GetOr(error);
        assert reply[0] == 'F';
        ToolRun(reply, fetched.calls, Some(payload))
      case PostOk(txHash, reason) =>
        ToolRun(ApprovedReply(wallet, txHash, reason), fetched.calls, Some(payload))
  }

  /** `issue_tbnb`: refuse an empty username, find the wallet, post the
      payout request under the original username, and report the outcome.
      An omitted channel is "discord"; an omitted or empty builder id is
      "anonymous". */
  function IssueTbnb(username: string, repoUrl: Option<string>, builderId: Option<string>,
                     channel: Option<string>, gh: GitHubReplies, post: PostReply): (run: ToolRun)
    ensures username == [] ==> run == ToolRun(UsernameRequiredReply, [], None)
    ensures username != [] ==> run.github == FetchWallet(username, repoUrl, gh).calls
    ensures run.posted.Some? <==> username != [] && FetchWallet(username, repoUrl, gh).wallet.Some?
    ensures run.posted.Some? ==>
              run.posted.value == Payload(if Given(builderId) then builderId.value else AnonymousBuilder,
                                          FetchWallet(username, repoUrl, gh).wallet.value, username,
                                          channel.GetOr(DefaultChannel))
    ensures StartsWith(run.reply, ApprovedPrefix) <==> run.posted.Some? && post.PostOk?
  {
    if username == [] then
      assert UsernameRequiredReply[0] == 'g' != ApprovedPrefix[0];
      ToolRun(UsernameRequiredReply, [], None)
    else
      Report(username, repoUrl, builderId, channel.GetOr(DefaultChannel), FetchWallet(username, repoUrl, gh), post)
  }

  /** The empty-username reply cannot be produced any other way. */
  lemma UsernameRequiredOnlyForEmpty(username: string, repoUrl: Option<string>, builderId: Option<string>,
                                     channel: Option<string>, gh: GitHubReplies, post: PostReply)
    ensures IssueTbnb(username, repoUrl, builderId, channel, gh, post).reply == UsernameRequiredReply
            <==> username == []
  {
  }

  /** A URL that was given but did not lead to a wallet is named in the
      reply, whether or not it parsed. */
  lemma GivenUrlIsNamed(username: string, url: string, builderId: Option<string>,
                        channel: Option<string>, gh: GitHubReplies, post: PostReply)
    requires username != [] && url != []
    requires FetchWallet(username, Some(url), gh).wallet.None?
    ensures IssueTbnb(username, Some(url), builderId, channel, gh, post).reply == NoWalletInRepoReply(url)
  {
  }

  /** A run without a channel posts the payload for the "discord" channel,
      and one without a builder id posts it as "anonymous". */
  lemma OmittedArgumentsDefault(username: string, repoUrl: Option<string>, gh: GitHubReplies, post: PostReply)
    ensures var run := IssueTbnb(username, repoUrl, None, None, gh, post);
            run.posted.Some? ==> run.posted.value.channel == DefaultChannel
                                 && run.posted.value.builderId == AnonymousBuilder
  {
  }

  /** The server's reply fills in `unknown` for a missing hash and `N/A` for
      a missing reason. */
  lemma ApprovedReplyDefaults(wallet: string, txHash: Option<string>, reason: Option<string>)
    ensures txHash.None? ==> ApprovedReply(wallet, txHash, reason) == ApprovedReply(wallet, Some("unknown"), reason)
    ensures reason.None? ==> ApprovedReply(wallet, txHash, reason) == ApprovedReply(wallet, txHash, Some("N/A"))
    ensures ApprovedReply(wallet, None, None)
            == "Payout approved! Sent tBNB to " + wallet + ". Transaction hash: unknown. Verification: N/A"
  {
  }
}

=== FILE: common.dfy ===
/** Failure-carrying wrappers shared by every module of the faucet model. */
module Common {

  /** A value that may be absent: Python's `None`, a missing JSON key, a SQL NULL. */
  datatype Option<+T> = None | Some(value: T) {
    function GetOr(default: T): T {
      match this
      case Some(v) => v
      case None => default
    }
  }

  /** The outcome of a call that may raise: `Err` carries the exception's text. */
  datatype Result<+T> = Ok(value: T) | Err(error: string)
}

=== FILE: coordinator.dfy ===
/**
 The disbursement coordinator of the payout server (`request_tbnb`). Its
 three outside calls are inputs: the verification service's reply, the chain's
 replies to the transfer, and the record-payout reply. The coordinator is a
 function of them that returns the HTTP outcome and the trace of the calls it
 made, in order; the ordering guarantees are stated over that trace.
 */
module Coordinator {
  import opened Common
  import opened Text
  import opened Verifier
  import opened Treasury

  /** `DisbursementRequest`. */
  datatype Request = Request(builderId: string, wallet: string, username: string, channel: string)

  /** The server's configuration: `VERIFICATION_SERVICE_URL` and the payout
      amount, already converted to wei. */
  datatype Config = Config(verificationUrl: string, payoutWei: int)

  /** The verification call: it raised (transport error or non-2xx status,
      through `raise_for_status`), or returned a verdict. */
  datatype VerifyReply = VerifyFailed(error: string) | VerifyReplied(verdict: Verdict)

  /** The record-payout call: it succeeded, or raised. */
  datatype RecordReply = Recorded | RecordFailed(error: string)

  /** The side effects of one request, in the order performed. */
  datatype Event =
    | VerifyCall(url: string, wallet: string, username: string, requesterId: string, channel: string)
    | TransferCall(wallet: string, valueWei: int)
    | Chain(step: ChainStep)
    | RecordCall(url: string, githubUserId: int)
    | Warning(text: string)

  /** `DisbursementResponse` on success, an `HTTPException` otherwise. */
  datatype Outcome =
    | Approved(requestId: string, status: string, message: string, txHash: string, verification: Verdict)
    | Refused(httpStatus: int, detail: string)

  datatype Handled = Handled(outcome: Outcome, trace: seq<Event>)

  const ApprovedStatus: string := "approved"
  const ApprovedMessage: string := "Disbursement submitted to BSC testnet"
  const DeniedPrefix: string := "Verification failed: "
  const RecordWarningPrefix: string := "Warning: Failed to record payout: "
  /** What the web framework answers when a handler raises an exception that
      is not an `HTTPException`. */
  const InternalErrorDetail: string := "Internal Server Error"

  /** The characters `rstrip('/verify')` strips: a set, not a suffix. */
  const VerifyChars: set<char> := set c: char | c in VerifyPath
  const VerifyPath: string := "/verify"
  const RecordPath: string := "/record-payout"
  const LocalService: string := "http://localhost:8080"
  const DefaultVerificationUrl: string := LocalService + VerifyPath

  predicate EndsWith(s: string, suffix: string) {
    |suffix| <= |s| && s[|s| - |suffix|..] == suffix
  }

  /** The record-payout URL as the source derives it:
      `VERIFICATION_URL.rstrip('/verify') + '/record-payout'`. */
  function RecordPayoutUrlAsWritten(verificationUrl: string): (u: string)
    ensures EndsWith(u, RecordPath)
  {
    RStripChars(verificationUrl, VerifyChars) + RecordPath
  }

  /** The record-payout URL as evidently intended: the `/verify` path segment
      replaced by `/record-payout`. */
  function RecordPayoutUrl(verificationUrl: string): (u: string)
    ensures EndsWith(u, RecordPath)
  {
    var base := if EndsWith(verificationUrl, VerifyPath)
                then verificationUrl[..|verificationUrl| - |VerifyPath|]
                else verificationUrl;
    base + RecordPath
  }

  /** The intended derivation replaces exactly the `/verify` suffix. */
  lemma RecordPayoutUrlReplacesSuffix(base: string)
    ensures RecordPayoutUrl(base + VerifyPath) == base + RecordPath
  {
    assert (base + VerifyPath)[|base + VerifyPath| - |VerifyPath|..] == VerifyPath;
    assert (base + VerifyPath)[..|base|] == base;
  }

  /** The source's derivation agrees with the intended one on a URL ending in
      `/verify` exactly when the part before `/verify` does not end in one of
      the characters `/verify`; otherwise it eats into the host or path. */
  lemma RecordPayoutUrlAsWrittenAgreesIff(base: string)
    ensures RecordPayoutUrlAsWritten(base + VerifyPath) == RecordPayoutUrl(base + VerifyPath)
            <==> base == [] || base[|base| - 1] !in VerifyChars
  {
    RecordPayoutUrlReplacesSuffix(base);
    RStripCharsAbsorbs(base, VerifyPath, VerifyChars);
    RStripCharsFixed(base, VerifyChars);
    var a := RStripChars(base, VerifyChars);
    assert RecordPayoutUrlAsWritten(base + VerifyPath) == a + RecordPath;
    if a + RecordPath == base + RecordPath {
      assert a == (a + RecordPath)[..|a|];
      assert base == (base + RecordPath)[..|base|];
    }
  }

  /** The default URL is derived correctly by both. */
  lemma DefaultRecordPayoutUrl()
    ensures RecordPayoutUrlAsWritten(DefaultVerificationUrl) == LocalService + RecordPath
    ensures RecordPayoutUrl(DefaultVerificationUrl) == LocalService + RecordPath
  {
    assert LocalService[|LocalService| - 1] == '0';
    RecordPayoutUrlAsWrittenAgreesIff(LocalService);
    RecordPayoutUrlReplacesSuffix(LocalService);
  }

  /** A verification URL under an `/api` prefix loses the `i` of `api` too. */
  lemma RecordPayoutUrlAsWrittenEatsPath()
    ensures RecordPayoutUrlAsWritten(LocalService + "/api" + VerifyPath) == LocalService + "/ap" + RecordPath
  {
    var kept := LocalService + "/ap";
    assert 'i' in VerifyChars && 'p' !in VerifyChars;
    assert Within("i" + VerifyPath, VerifyChars);
    assert LocalService + "/api" + VerifyPath == kept + ("i" + VerifyPath);
    RStripCharsAbsorbs(kept, "i" + VerifyPath, VerifyChars);
    assert kept[|kept| - 1] == 'p';
    RStripCharsFixed(kept, VerifyChars);
  }

  /** The intended derivation keeps the `/api` prefix. */
  lemma RecordPayoutUrlKeepsPath()
    ensures RecordPayoutUrl(LocalService + "/api" + VerifyPath) == LocalService + "/api" + RecordPath
  {
    RecordPayoutUrlReplacesSuffix(LocalService + "/api");
  }

  /** Python truthiness of the verdict's `github_user_id`: present and not 0. */
  predicate Truthy(id: Option<int>) {
    id.Some? && id.value != 0
  }

  function ChainEvents(steps: seq<ChainStep>): (es: seq<Event>)
    ensures |es| == |steps|
    ensures forall i | 0 <= i < |steps| :: es[i] == Chain(steps[i])
  {
    seq(|steps|, i requires 0 <= i < |steps| => Chain(steps[i]))
  }

  /** What follows a transfer that returned a hash: nothing for a falsy user
      id; otherwise the record-payout call, addressed as the source derives
      it, and a logged warning if it failed. */
  function Recording(cfg: Config, v: Verdict, record: RecordReply): (es: seq<Event>)
    ensures forall i | 0 <= i < |es| :: !es[i].TransferCall? && !es[i].Chain?
    ensures forall i | 0 <= i < |es| && es[i].RecordCall? ::
              i == 0 && Truthy(v.githubUserId)
              && es[i] == RecordCall(RecordPayoutUrlAsWritten(cfg.verificationUrl), v.githubUserId.value)
    ensures Truthy(v.githubUserId) <==> |es| > 0
    ensures Truthy(v.githubUserId) ==>
              es[0] == RecordCall(RecordPayoutUrlAsWritten(cfg.verificationUrl), v.githubUserId.value)
  {
    if !Truthy(v.githubUserId) then []
    else
      var rc := RecordCall(RecordPayoutUrlAsWritten(cfg.verificationUrl), v.githubUserId.value);
      match record
      case Recorded => [rc]
      case RecordFailed(e) => [rc, Warning(RecordWarningPrefix + e)]
  }

  /** `request_tbnb`: verify, then (only on a truthy verdict) transfer once,
      then (only after the transfer returned a hash, and only for a truthy
      user id) record the payout; a failed recording is logged and swallowed.
      The order of the side effects is stated by the lemmas that follow. */
  function RequestTbnb(cfg: Config, req: Request, requestId: string,
                       verify: VerifyReply, chain: ChainReplies, record: RecordReply): (h: Handled)
    ensures |h.trace| >= 1
    ensures h.trace[0] == VerifyCall(cfg.verificationUrl, req.wallet, req.username, req.builderId, req.channel)
    ensures h.outcome.Approved? <==>
              verify.VerifyReplied? && verify.verdict.verified && SendTbnb(cfg.payoutWei, chain).result.Ok?
    ensures h.outcome.Approved? ==>
              && h.outcome == Approved(requestId, ApprovedStatus, ApprovedMessage,
                                       SendTbnb(cfg.payoutWei, chain).result.value, verify.verdict)
  {
    var call := VerifyCall(cfg.verificationUrl, req.wallet, req.username, req.builderId, req.channel);
    match verify
    case VerifyFailed(_) => Handled(Refused(500, InternalErrorDetail), [call])
    case VerifyReplied(v) =>
      if !v.verified then Handled(Refused(403, DeniedPrefix + v.reason), [call])
      else
        var transfer := SendTbnb(cfg.payoutWei, chain);
        var sent := [call, TransferCall(req.wallet, cfg.payoutWei)] + ChainEvents(transfer.steps);
        match transfer.result
        case Err(e) => Handled(Refused(500, e), sent)
        case Ok(hash) => Handled(Approved(requestId, ApprovedStatus, ApprovedMessage, hash, v),
                                 sent + Recording(cfg, v, record))
  }

  /** A verification call that raises is not caught: the request ends with
      the framework's 500 answer, after the verification call and nothing
      else. */
  lemma VerifyFailureIsInternalError(cfg: Config, req: Request, requestId: string, e: string,
                                     chain: ChainReplies, record: RecordReply)
    ensures RequestTbnb(cfg, req, requestId, VerifyFailed(e), chain, record)
            == Handled(Refused(500, InternalErrorDetail),
                       [VerifyCall(cfg.verificationUrl, req.wallet, req.username, req.builderId, req.channel)])
  {
  }

  /** Funds move only after a positive verdict, and the transfer is started
      once, right after the verification call. */
  lemma TransferOnlyAfterVerdict(cfg: Config, req: Request, requestId: string,
                                 verify: VerifyReply, chain: ChainReplies, record: RecordReply)
    ensures var h := RequestTbnb(cfg, req, requestId, verify, chain, record);
            forall i | 0 <= i < |h.trace| && (h.trace[i].TransferCall? || h.trace[i].Chain?) ::
              verify.VerifyReplied? && verify.verdict.verified
    ensures var h := RequestTbnb(cfg, req, requestId, verify, chain, record);
            forall i | 0 <= i < |h.trace| && h.trace[i].TransferCall? ::
              i == 1 && h.trace[i] == TransferCall(req.wallet, cfg.payoutWei)
  {
    var h := RequestTbnb(cfg, req, requestId, verify, chain, record);
    if verify.VerifyReplied? && verify.verdict.verified {
      var steps := SendTbnb(cfg.payoutWei, chain).steps;
      assert forall i | 2 <= i < 2 + |steps| :: h.trace[i] == Chain(steps[i - 2]);
    }
  }

  /** A positive verdict starts the transfer right after the verification
      call, and a paid transfer for a truthy user id is always followed by its
      record call. */
  lemma PositiveVerdictTransfersAndRecords(cfg: Config, req: Request, requestId: string,
                                           verify: VerifyReply, chain: ChainReplies, record: RecordReply)
    ensures var h := RequestTbnb(cfg, req, requestId, verify, chain, record);
            verify.VerifyReplied? && verify.verdict.verified ==>
              |h.trace| >= 2 && h.trace[1] == TransferCall(req.wallet, cfg.payoutWei)
    ensures var h := RequestTbnb(cfg, req, requestId, verify, chain, record);
            h.outcome.Approved? && Truthy(verify.verdict.githubUserId) ==>
              RecordCall(RecordPayoutUrlAsWritten(cfg.verificationUrl), verify.verdict.githubUserId.value)
              in h.trace
  {
    var h := RequestTbnb(cfg, req, requestId, verify, chain, record);
    if h.outcome.Approved? && Truthy(verify.verdict.githubUserId) {
      var n := 2 + |SendTbnb(cfg.payoutWei, chain).steps|;
      assert h.trace[n] == Recording(cfg, verify.verdict, record)[0];
    }
  }

  /** A payout is recorded only after a transfer that returned a hash, only
      for a truthy user id, at the verification service's record-payout URL,
      and at most once. */
  lemma RecordOnlyAfterPayment(cfg: Config, req: Request, requestId: string,
                               verify: VerifyReply, chain: ChainReplies, record: RecordReply)
    ensures var h := RequestTbnb(cfg, req, requestId, verify, chain, record);
            forall i | 0 <= i < |h.trace| && h.trace[i].RecordCall? ::
              && i > 1
              && verify.VerifyReplied?
              && SendTbnb(cfg.payoutWei, chain).result.Ok?
              && Truthy(verify.verdict.githubUserId)
              && h.trace[i] == RecordCall(RecordPayoutUrlAsWritten(cfg.verificationUrl), verify.verdict.githubUserId.value)
    ensures var h := RequestTbnb(cfg, req, requestId, verify, chain, record);
            forall i, j | 0 <= i < |h.trace| && 0 <= j < |h.trace|
              && h.trace[i].RecordCall? && h.trace[j].RecordCall? :: i == j
  {
    var h := RequestTbnb(cfg, req, requestId, verify, chain, record);
    if verify.VerifyReplied? && verify.verdict.verified {
      var steps := SendTbnb(cfg.payoutWei, chain).steps;
      var n := 2 + |steps|;
      assert forall i | 0 <= i < n :: !h.trace[i].RecordCall?;
      if SendTbnb(cfg.payoutWei, chain).result.Ok? {
        var rec := Recording(cfg, verify.verdict, record);
        assert forall i | n <= i < |h.trace| :: h.trace[i] == rec[i - n];
      }
    }
  }

  /** The signed transaction is submitted at most once. */
  lemma SubmitAtMostOnce(cfg: Config, req: Request, requestId: string,
                         verify: VerifyReply, chain: ChainReplies, record: RecordReply)
    ensures var h := RequestTbnb(cfg, req, requestId, verify, chain, record);
            forall i, j | 0 <= i < |h.trace| && 0 <= j < |h.trace|
              && h.trace[i] == Chain(Submit) && h.trace[j] == Chain(Submit) :: i == j
  {
    var h := RequestTbnb(cfg, req, requestId, verify, chain, record);
    if verify.VerifyReplied? && verify.verdict.verified {
      var steps := SendTbnb(cfg.payoutWei, chain).steps;
      var n := 2 + |steps|;
      assert forall i | 2 <= i < n :: h.trace[i] == Chain(steps[i - 2]);
      assert forall i | n <= i < |h.trace| :: !h.trace[i].Chain?;
    }
  }

  /** A negative verdict gives 403 with the verdict's reason, and nothing
      beyond the verification call happens. */
  lemma DeniedMakesNoTransfer(cfg: Config, req: Request, requestId: string, v: Verdict,
                              chain: ChainReplies, record: RecordReply)
    requires !v.verified
    ensures RequestTbnb(cfg, req, requestId, VerifyReplied(v), chain, record).outcome
            == Refused(403, DeniedPrefix + v.reason)
    ensures |RequestTbnb(cfg, req, requestId, VerifyReplied(v), chain, record).trace| == 1
  {
  }

  /** A failed transfer gives 500 with the transfer's error text, and no
      recording is attempted. */
  lemma TransferFailureMakesNoRecord(cfg: Config, req: Request, requestId: string, v: Verdict,
                                     chain: ChainReplies, record: RecordReply)
    requires v.verified && SendTbnb(cfg.payoutWei, chain).result.Err?
    ensures RequestTbnb(cfg, req, requestId, VerifyReplied(v), chain, record).outcome
            == Refused(500, SendTbnb(cfg.payoutWei, chain).result.error)
    ensures forall e | e in RequestTbnb(cfg, req, requestId, VerifyReplied(v), chain, record).trace ::
              !e.RecordCall?
  {
  }

  /** A failed recording never changes what the client receives. */
  lemma RecordFailureIsSwallowed(cfg: Config, req: Request, requestId: string, verify: VerifyReply,
                                 chain: ChainReplies, error: string)
    ensures RequestTbnb(cfg, req, requestId, verify, chain, RecordFailed(error)).outcome
            == RequestTbnb(cfg, req, requestId, verify, chain, Recorded).outcome
  {
  }

  /** A verdict without a usable user id (missing, or 0) is paid but never
      recorded, so the rate limit never sees it. */
  lemma FalsyIdIsNotRecorded(cfg: Config, req: Request, requestId: string, v: Verdict,
                             chain: ChainReplies, record: RecordReply)
    requires !Truthy(v.githubUserId)
    ensures forall e | e in RequestTbnb(cfg, req, requestId, VerifyReplied(v), chain, record).trace ::
              !e.RecordCall?
  {
  }
}

=== FILE: faucet.dfy ===
/**
 The payout server and the verification service together: one disbursement
 request runs the coordinator against the verification service's `/verify`
 endpoint and, after a paid transfer, its `/record-payout` endpoint, which
 writes the rate-limit store. The only thing that travels from one request
 to the next is the store, so the cooldown guarantee is a statement about
 two consecutive rounds.
 */
module Faucet {
  import opened Common
  import opened PayoutStore
  import opened Verifier
  import opened Treasury
  import opened Coordinator

  /** How a call between the two services fared: the service handled it and
      the answer came back; it never reached the service; or the service
      handled it but the answer was lost on the way back. */
  datatype Delivery = Delivered | Lost(error: string) | AckLost(error: string)

  predicate Reached(d: Delivery) {
    d.Delivered? || d.AckLost?
  }

  /** The verification service is deployed at `service`: it answers
      `service + "/verify"` and `service + "/record-payout"`, and any other path
      with 404. */
  predicate VerifyRouted(cfg: Config, service: string) {
    cfg.verificationUrl == service + VerifyPath
  }

  /** The payout server's record call, addressed as line 95 of the payout
      server derives it, reaches the service's record endpoint. */
  predicate RecordRouted(cfg: Config, service: string) {
    RecordPayoutUrlAsWritten(cfg.verificationUrl) == service + RecordPath
  }

  /** How `raise_for_status` reports a path the service does not serve. */
  const NotFoundError: string := "404 Not Found"

  /** What the coordinator sees of its verification call. A path the service
      does not serve, and an empty username (answered with 400), both make
      `raise_for_status` raise. */
  function VerifyReplyOf(response: VerifyResponse, d: Delivery, routed: bool): (r: VerifyReply)
    ensures r.VerifyReplied? <==> d.Delivered? && routed && response.Verdicted?
    ensures r.VerifyReplied? ==> r.verdict == response.verdict
  {
    match d
    case Lost(e) => VerifyFailed(e)
    case AckLost(e) => VerifyFailed(e)
    case Delivered =>
      if !routed then VerifyFailed(NotFoundError)
      else
        match response
        case BadRequest(detail) => VerifyFailed(detail)
        case Verdicted(v) => VerifyReplied(v)
  }

  /** What the coordinator sees of its record-payout call. */
  function RecordReplyOf(d: Delivery, routed: bool): (r: RecordReply)
    ensures r.Recorded? <==> d.Delivered? && routed
  {
    match d
    case Delivered => if routed then Recorded else RecordFailed(NotFoundError)
    case Lost(e) => RecordFailed(e)
    case AckLost(e) => RecordFailed(e)
  }

  /** One request end to end: the outcome and trace of the coordinator, and
      the store as the verification service holds it afterwards. */
  datatype Round = Round(handled: Handled, store: Store)

  /** The payout server handles `req`; the verification service deployed at
      `service` judges it against `store` at `verifyTime`; a record-payout call
      that reaches the service's record endpoint stores `recordTime` for the
      verdict's user id. */
  function Serve(cfg: Config, service: string, req: Request, requestId: string, store: Store,
                 lookup: Lookup, verifyTime: int, verifyLink: Delivery,
                 chain: ChainReplies, recordLink: Delivery, recordTime: int): (r: Round)
    ensures r.store != store ==>
              && r.handled.outcome.Approved?
              && Reached(recordLink)
              && RecordRouted(cfg, service)
              && Truthy(r.handled.outcome.verification.githubUserId)
              && RecordCall(RecordPayoutUrlAsWritten(cfg.verificationUrl),
                            r.handled.outcome.verification.githubUserId.value)
                 in r.handled.trace
    ensures r.store.Keys >= store.Keys
  {
    var response := VerifyWallet(req.username, req.wallet, lookup, store, verifyTime);
    var verify := VerifyReplyOf(response, verifyLink, VerifyRouted(cfg, service));
    var routed := RecordRouted(cfg, service);
    var h := RequestTbnb(cfg, req, requestId, verify, chain, RecordReplyOf(recordLink, routed));
    if h.outcome.Approved? && Truthy(h.outcome.verification.githubUserId) && Reached(recordLink) && routed then
      var id := h.outcome.verification.githubUserId.value;
      assert h.trace[2 + |SendTbnb(cfg.payoutWei, chain).steps|]
             == RecordCall(RecordPayoutUrlAsWritten(cfg.verificationUrl), id);
      Round(h, RecordPayout(store, id, recordTime))
    else
      Round(h, store)
  }

  /** For a service deployed at `base` and the verification URL
      `base + "/verify"`, the source's record call reaches the service exactly
      when its derivation agrees with the intended one, that is, exactly when
      `base` does not end in one of the characters of `/verify`. */
  lemma RecordRoutedIff(base: string, payoutWei: int)
    ensures RecordRouted(Config(base + VerifyPath, payoutWei), base)
            <==> RecordPayoutUrlAsWritten(base + VerifyPath) == RecordPayoutUrl(base + VerifyPath)
    ensures RecordRouted(Config(base + VerifyPath, payoutWei), base)
            <==> base == [] || base[|base| - 1] !in VerifyChars
  {
    RecordPayoutUrlReplacesSuffix(base);
    RecordPayoutUrlAsWrittenAgreesIff(base);
  }

  /** The default deployment routes both calls. */
  lemma DefaultDeploymentRouted(payoutWei: int)
    ensures VerifyRouted(Config(DefaultVerificationUrl, payoutWei), LocalService)
    ensures RecordRouted(Config(DefaultVerificationUrl, payoutWei), LocalService)
  {
    DefaultRecordPayoutUrl();
  }

  /** A service deployed under an `/api` prefix never receives the record
      call: the store is left as it was, so the same request replayed at once
      is paid again. */
  lemma ApiPrefixPaysTwice(payoutWei: int, req: Request, id1: string, id2: string, store: Store,
                           lookup: Lookup, t: int, link: Delivery, chain: ChainReplies, rec: Delivery)
    ensures var cfg := Config(LocalService + "/api" + VerifyPath, payoutWei);
            var service := LocalService + "/api";
            var r1 := Serve(cfg, service, req, id1, store, lookup, t, link, chain, rec, t);
            var r2 := Serve(cfg, service, req, id2, r1.store, lookup, t, link, chain, rec, t);
            && VerifyRouted(cfg, service)
            && r1.store == store
            && (r1.handled.outcome.Approved? ==> r2.handled.outcome.Approved?)
  {
    var cfg := Config(LocalService + "/api" + VerifyPath, payoutWei);
    var service := LocalService + "/api";
    RecordPayoutUrlAsWrittenEatsPath();
    assert |LocalService + "/ap" + RecordPath| != |service + RecordPath|;
    assert !RecordRouted(cfg, service);
  }

  /** A paid request whose recording reached the service's record endpoint
      stores the payout time for the paid user. */
  lemma PaidAndRecorded(cfg: Config, service: string, req: Request, requestId: string, store: Store,
                        lookup: Lookup, verifyTime: int, verifyLink: Delivery,
                        chain: ChainReplies, recordLink: Delivery, recordTime: int)
    requires Reached(recordLink) && RecordRouted(cfg, service)
    requires Serve(cfg, service, req, requestId, store, lookup, verifyTime, verifyLink, chain, recordLink, recordTime)
             .handled.outcome.Approved?
    requires lookup.Responded? && lookup.user.id.Some? && lookup.user.id.value != 0
    ensures var r := Serve(cfg, service, req, requestId, store, lookup, verifyTime, verifyLink, chain, recordLink, recordTime);
            r.store == RecordPayout(store, lookup.user.id.value, recordTime)
  {
  }

  /** Once a payout to a user has been recorded at `t`, a request for the same
      GitHub user before `t + 24 h` (including any clock reading before `t`) is
      refused and moves no funds, whatever wallet, username or channel it
      carries. This needs the record call to reach the service. */
  lemma NoSecondPayoutWithinCooldown(cfg: Config, service: string, req1: Request, req2: Request,
                                     id1: string, id2: string, store: Store, lookup1: Lookup, lookup2: Lookup,
                                     t1: int, link1: Delivery, chain1: ChainReplies, rec1: Delivery, t: int,
                                     now: int, link2: Delivery, chain2: ChainReplies, rec2: Delivery, t2: int)
    requires RecordRouted(cfg, service)
    requires Reached(rec1)
    requires Serve(cfg, service, req1, id1, store, lookup1, t1, link1, chain1, rec1, t).handled.outcome.Approved?
    requires lookup1.Responded? && lookup1.user.id.Some? && lookup1.user.id.value != 0
    requires lookup2.Responded? && lookup2.user.id == lookup1.user.id
    requires now < t + CooldownSeconds
    ensures var s1 := Serve(cfg, service, req1, id1, store, lookup1, t1, link1, chain1, rec1, t).store;
            var r2 := Serve(cfg, service, req2, id2, s1, lookup2, now, link2, chain2, rec2, t2);
            && r2.handled.outcome.Refused?
            && (forall e | e in r2.handled.trace :: !e.TransferCall? && !e.Chain?)
            && r2.store == s1
  {
    var uid := lookup1.user.id.value;
    PaidAndRecorded(cfg, service, req1, id1, store, lookup1, t1, link1, chain1, rec1, t);
    var s1 := Serve(cfg, service, req1, id1, store, lookup1, t1, link1, chain1, rec1, t).store;
    CooldownAfterRecord(store, uid, t, now);
    assert !Eligible(lookup2, s1, now);
    var r2 := Serve(cfg, service, req2, id2, s1, lookup2, now, link2, chain2, rec2, t2);
    TransferOnlyAfterVerdict(cfg, req2, id2, VerifyReplyOf(VerifyWallet(req2.username, req2.wallet, lookup2, s1, now),
                                                          link2, VerifyRouted(cfg, service)),
                             chain2, RecordReplyOf(rec2, RecordRouted(cfg, service)));
  }

  /** A record call that never reached the service, or reached a path it
      does not serve, leaves the store as it was although the payout was made:
      the same user can be paid again at once. */
  lemma UnrecordedLeavesStore(cfg: Config, service: string, req: Request, requestId: string, store: Store,
                              lookup: Lookup, verifyTime: int, verifyLink: Delivery,
                              chain: ChainReplies, recordLink: Delivery, recordTime: int)
    requires recordLink.Lost? || !RecordRouted(cfg, service)
    ensures Serve(cfg, service, req, requestId, store, lookup, verifyTime, verifyLink, chain, recordLink, recordTime).store
            == store
  {
  }

  /** A lost acknowledgement still records the payout, while the client sees
      exactly what it would have seen had the recording failed outright. */
  lemma LostAckStillRecords(cfg: Config, service: string, req: Request, requestId: string, store: Store,
                            lookup: Lookup, verifyTime: int, verifyLink: Delivery,
                            chain: ChainReplies, error: string, recordTime: int)
    ensures var acked := Serve(cfg, service, req, requestId, store, lookup, verifyTime, verifyLink, chain, AckLost(error), recordTime);
            var lost := Serve(cfg, service, req, requestId, store, lookup, verifyTime, verifyLink, chain, Lost(error), recordTime);
            var ok := Serve(cfg, service, req, requestId, store, lookup, verifyTime, verifyLink, chain, Delivered, recordTime);
            acked.handled == lost.handled && acked.store == ok.store
  {
  }

  /** A refused request never changes the store. */
  lemma RefusedLeavesStore(cfg: Config, service: string, req: Request, requestId: string, store: Store,
                           lookup: Lookup, verifyTime: int, verifyLink: Delivery,
                           chain: ChainReplies, recordLink: Delivery, recordTime: int)
    requires Serve(cfg, service, req, requestId, store, lookup, verifyTime, verifyLink, chain, recordLink, recordTime)
             .handled.outcome.Refused?
    ensures Serve(cfg, service, req, requestId, store, lookup, verifyTime, verifyLink, chain, recordLink, recordTime).store
            == store
  {
  }
}

=== FILE: payout_store.dfy ===
/**
 The rate-limit store of the verification service: the `payout_history`
 table, keyed by GitHub user id, holding the time of each user's last payout.
 The table's primary key plus `INSERT OR REPLACE` make it a finite map, so it
 is modelled as one. Times are whole seconds on the service's wall clock.
 */
module PayoutStore {
  import opened Common
  import opened Text

  /** GitHub user id to the time of that user's last recorded payout. */
  type Store = map<int, int>

  /** The cooldown between two payouts to the same user: 24 hours. */
  const CooldownSeconds: int := 24 * 60 * 60

  const RateLimitPrefix: string := "Rate limited"

  /** An hour figure with one decimal, e.g. "2.3", from a duration in seconds.
      Rounds half up on the exact value. */
  function HoursText(seconds: int): string {
    var tenths := (seconds + 180) / 360;
    if tenths < 0 then "-" + TenthsText(-tenths) else TenthsText(tenths)
  }

  function TenthsText(tenths: nat): string {
    NatToString(tenths / 10) + "." + [DigitChar(tenths % 10)]
  }

  /** The message `can_collect_tbnb` gives a user still inside the cooldown. */
  function RateLimitMessage(elapsed: int): (m: string)
    ensures StartsWith(m, RateLimitPrefix)
  {
    RateLimitPrefix + ". Last payout was " + HoursText(elapsed) + "h ago. Try again in "
    + HoursText(CooldownSeconds - elapsed) + " hours"
  }

  /** May the user collect at time `now`? A missing row means yes, as does a
      cooldown that has run out; otherwise the answer is no, with a message.
      The id is optional because the verifier passes `None` through when the
      GitHub reply carries no id, and `github_user_id = NULL` matches no row. */
  function CanCollect(store: Store, id: Option<int>, now: int): (r: (bool, Option<string>))
    ensures r.0 <==> r.1.None?
    ensures id.None? || id.value !in store ==> r.0
    ensures id.Some? && id.value in store ==>
              (r.0 <==> now - store[id.value] >= CooldownSeconds)
    ensures !r.0 ==> StartsWith(r.1.value, RateLimitPrefix)
  {
    match id
    case None => (true, None)
    case Some(key) =>
      if key !in store then (true, None)
      else
        var elapsed := now - store[key];
        if elapsed < CooldownSeconds then (false, Some(RateLimitMessage(elapsed)))
        else (true, None)
  }

  /** `record_payout`: insert or replace the row of `id` with time `t`. */
  function RecordPayout(store: Store, id: int, t: int): (r: Store)
    ensures id in r && r[id] == t
    ensures r.Keys == store.Keys + {id}
    ensures forall k | k in store && k != id :: r[k] == store[k]
    ensures |r| == if id in store then |store| else |store| + 1
  {
    var r := store[id := t];
    assert id in store ==> r.Keys == store.Keys;
    assert id !in store ==> r.Keys == store.Keys + {id} && id !in store.Keys;
    r
  }

  /** Last write wins: a second payout to the same user replaces the first. */
  lemma RecordLastWriteWins(store: Store, id: int, t1: int, t2: int)
    ensures RecordPayout(RecordPayout(store, id, t1), id, t2) == RecordPayout(store, id, t2)
  {
  }

  /** Recording the same payout twice is the same as recording it once. */
  lemma RecordIdempotent(store: Store, id: int, t: int)
    ensures RecordPayout(RecordPayout(store, id, t), id, t) == RecordPayout(store, id, t)
  {
  }

  /** Right after a payout is recorded at `t`, the user is refused for the next
      24 hours (and at any clock reading before `t`), then allowed again. */
  lemma CooldownAfterRecord(store: Store, id: int, t: int, now: int)
    ensures !CanCollect(RecordPayout(store, id, t), Some(id), now).0 <==> now < t + CooldownSeconds
  {
  }

  /** The answer for a user depends on that user's row alone. */
  lemma CanCollectReadsOneRow(s1: Store, s2: Store, id: int, now: int)
    requires id in s1 <==> id in s2
    requires id in s1 ==> s1[id] == s2[id]
    ensures CanCollect(s1, Some(id), now) == CanCollect(s2, Some(id), now)
  {
  }

  /** Recording a payout for one user changes no other user's answer. */
  lemma RecordLeavesOthersAlone(store: Store, id: int, t: int, other: int, now: int)
    requires other != id
    ensures CanCollect(RecordPayout(store, id, t), Some(other), now) == CanCollect(store, Some(other), now)
  {
    var r := RecordPayout(store, id, t);
    assert other in r.Keys <==> other in store.Keys;
    CanCollectReadsOneRow(r, store, other, now);
  }
}

=== FILE: repo_url.dfy ===
/**
 The chat bot's repository-URL parser (`parse_github_repo_url`). The input is
 stripped of surrounding whitespace and of every trailing slash, then tried
 against two regular expressions in turn, with Python's `re.search`:
   1. `github\.com/([^/]+)/([^/]+)` anywhere in the string (leftmost match);
   2. `^([^/]+)/([^/]+)$` on the whole string.
 Both classes are greedy and `[^/]` matches any character but `/`.
 */
module RepoUrl {
  import opened Common
  import opened Text

  const Slash: set<char> := {'/'}
  const GithubHost: string := "github.com/"

  /** `repo_url.strip().rstrip("/")`. */
  function Normalize(url: string): (s: string)
    ensures s == [] || (s[0] !in Whitespace && s[|s| - 1] !in Slash)
  {
    RStripChars(Strip(url), Slash)
  }

  /** Reference semantics of the part of pattern 1 after the host: a
      non-empty slash-free owner, a slash, and the longest non-empty
      slash-free repository name that follows, at the start of `t`. */
  ghost predicate OwnerRepoPrefix(t: string, owner: string, repo: string) {
    var k := |owner|;
    var e := k + 1 + |repo|;
    && e <= |t|
    && owner != [] && Avoids(owner, Slash)
    && repo != [] && Avoids(repo, Slash)
    && t[..k] == owner
    && t[k] == '/'
    && t[k + 1..e] == repo
    && (e == |t| || t[e] == '/')
  }

  /** Reference semantics of pattern 1 at position `i`. */
  ghost predicate GithubMatch(s: string, i: nat, owner: string, repo: string) {
    && i + |GithubHost| <= |s|
    && s[i..i + |GithubHost|] == GithubHost
    && OwnerRepoPrefix(s[i + |GithubHost|..], owner, repo)
  }

  /** The groups of pattern 1 read from `t`, the text right after the host. */
  function MatchOwnerRepo(t: string): Option<(string, string)> {
    var a := SpanAvoiding(t, Slash);
    if a == 0 || a == |t| then None
    else
      var b := SpanAvoiding(t[a + 1..], Slash);
      if b == 0 then None else Some((t[..a], t[a + 1..a + 1 + b]))
  }

  /** Pattern 1 tried at position `i` only. */
  function MatchAt(s: string, i: nat): Option<(string, string)>
    requires i <= |s|
  {
    if StartsWith(s[i..], GithubHost) then MatchOwnerRepo(s[i + |GithubHost|..]) else None
  }

  lemma MatchOwnerRepoComplete(t: string, owner: string, repo: string)
    requires OwnerRepoPrefix(t, owner, repo)
    ensures MatchOwnerRepo(t) == Some((owner, repo))
  {
    var k := |owner|;
    assert t[..k] == owner;
    SpanAvoidingUnique(t, Slash, k);
    var e := k + 1 + |repo|;
    assert t[k + 1..][..|repo|] == t[k + 1..e];
    SpanAvoidingUnique(t[k + 1..], Slash, |repo|);
  }

  lemma MatchOwnerRepoSound(t: string)
    requires MatchOwnerRepo(t).Some?
    ensures OwnerRepoPrefix(t, MatchOwnerRepo(t).value.0, MatchOwnerRepo(t).value.1)
  {
    var a := SpanAvoiding(t, Slash);
    var b := SpanAvoiding(t[a + 1..], Slash);
    var owner := t[..a];
    var repo := t[a + 1..a + 1 + b];
    assert MatchOwnerRepo(t) == Some((owner, repo));
    assert t[a + 1..][..b] == repo;
    assert Avoids(repo, Slash);
    assert t[a] == '/';
    assert a + 1 + b == |t| || t[a + 1 + b] == t[a + 1..][b];
  }

  /** `MatchAt` computes exactly the reference semantics. */
  lemma MatchAtCharacterized(s: string, i: nat, owner: string, repo: string)
    requires i <= |s|
    ensures GithubMatch(s, i, owner, repo) <==> MatchAt(s, i) == Some((owner, repo))
  {
    var j := i + |GithubHost|;
    if j <= |s| {
      assert s[i..][..|GithubHost|] == s[i..j];
      assert s[i..][|GithubHost|..] == s[j..];
    }
    if GithubMatch(s, i, owner, repo) {
      MatchOwnerRepoComplete(s[j..], owner, repo);
    }
    if MatchAt(s, i) == Some((owner, repo)) {
      MatchOwnerRepoSound(s[j..]);
    }
  }

  /** The first index, from `from` on, at which `hits` holds. */
  function FirstHit(hits: seq<bool>, from: nat): (p: Option<nat>)
    requires from <= |hits|
    ensures p.Some? ==> from <= p.value < |hits| && hits[p.value]
    ensures p.Some? ==> forall k | from <= k < p.value :: !hits[k]
    ensures p.None? ==> forall k | from <= k < |hits| :: !hits[k]
    decreases |hits| - from
  {
    if from == |hits| then None
    else if hits[from] then Some(from)
    else FirstHit(hits, from + 1)
  }

  /** The positions of `s` (the end included) at which pattern 1 matches. */
  function HostHits(s: string): (hits: seq<bool>)
    ensures |hits| == |s| + 1
    ensures forall k | 0 <= k <= |s| :: hits[k] == MatchAt(s, k).Some?
  {
    seq(|s| + 1, k requires 0 <= k <= |s| => MatchAt(s, k).Some?)
  }

  /** `re.search` with pattern 1: the leftmost position, from `from` on, where
      pattern 1 matches. */
  function FirstMatch(s: string, from: nat): (p: Option<nat>)
    requires from <= |s| + 1
    ensures p.Some? ==> from <= p.value <= |s| && MatchAt(s, p.value).Some?
    ensures p.Some? ==> forall k | from <= k < p.value :: MatchAt(s, k).None?
    ensures p.None? ==> forall k | from <= k <= |s| :: MatchAt(s, k).None?
  {
    var hits := HostHits(s);
    var p := FirstHit(hits, from);
    assert p.Some? ==> hits[p.value];
    assert p.Some? ==> forall k | from <= k < p.value :: !hits[k];
    assert p.None? ==> forall k | from <= k <= |s| :: !hits[k];
    p
  }

  /** Reference semantics of pattern 2: the whole string is one slash between
      two non-empty slash-free parts. */
  ghost predicate OwnerRepoShape(s: string, owner: string, repo: string) {
    && owner != [] && Avoids(owner, Slash)
    && repo != [] && Avoids(repo, Slash)
    && s == owner + "/" + repo
  }

  /** Pattern 2 on the whole string. */
  function WholeMatch(s: string): (m: Option<(string, string)>)
    ensures m.Some? ==> OwnerRepoShape(s, m.value.0, m.value.1)
    ensures m.None? ==> forall o, r :: !OwnerRepoShape(s, o, r)
  {
    var a := SpanAvoiding(s, Slash);
    if a == 0 || a == |s| then
      NoShapeWithoutSlash(s, a);
      None
    else
      var rest := s[a + 1..];
      assert s == s[..a] + "/" + rest;
      if rest != [] && Avoids(rest, Slash) then Some((s[..a], rest))
      else
        ShapeSplitsAtFirstSlash(s, a);
        None
  }

  lemma NoShapeWithoutSlash(s: string, a: nat)
    requires a == SpanAvoiding(s, Slash) && (a == 0 || a == |s|)
    ensures forall o, r :: !OwnerRepoShape(s, o, r)
  {
    forall o, r | OwnerRepoShape(s, o, r)
      ensures false
    {
      assert s[..|o|] == o;
      SpanAvoidingUnique(s, Slash, |o|);
    }
  }

  lemma ShapeSplitsAtFirstSlash(s: string, a: nat)
    requires a == SpanAvoiding(s, Slash) && 0 < a < |s|
    ensures forall o, r | OwnerRepoShape(s, o, r) :: r == s[a + 1..]
  {
    forall o, r | OwnerRepoShape(s, o, r)
      ensures r == s[a + 1..]
    {
      assert s[..|o|] == o;
      SpanAvoidingUnique(s, Slash, |o|);
      assert s[|o| + 1..] == r;
    }
  }

  /** The two patterns tried in turn on an already normalised string. */
  function MatchPatterns(s: string): (m: Option<(string, string)>)
    ensures m.Some? ==> m.value.0 != [] && Avoids(m.value.0, Slash)
                        && m.value.1 != [] && Avoids(m.value.1, Slash)
  {
    match FirstMatch(s, 0)
    case Some(p) =>
      var m := MatchAt(s, p);
      MatchAtCharacterized(s, p, m.value.0, m.value.1);
      m
    case None => WholeMatch(s)
  }

  /** `parse_github_repo_url`: normalise, then pattern 1 anywhere, else
      pattern 2, else None. */
  function Parse(url: string): (m: Option<(string, string)>)
    ensures m.Some? ==> m.value.0 != [] && Avoids(m.value.0, Slash)
                        && m.value.1 != [] && Avoids(m.value.1, Slash)
  {
    MatchPatterns(Normalize(url))
  }

  /** Pattern 1 wins whenever it matches somewhere; its leftmost match gives
      the result. */
  lemma ParsePrefersLeftmostHostMatch(url: string, i: nat, owner: string, repo: string)
    requires i <= |Normalize(url)| && GithubMatch(Normalize(url), i, owner, repo)
    requires forall k | 0 <= k < i :: MatchAt(Normalize(url), k).None?
    ensures Parse(url) == Some((owner, repo))
  {
    var s := Normalize(url);
    MatchAtCharacterized(s, i, owner, repo);
    var p := FirstMatch(s, 0);
    assert p.Some? && p.value <= i;
    assert p.value == i;
    assert Parse(url) == MatchPatterns(s);
  }

  /** Surrounding whitespace never matters. */
  lemma ParseIgnoresLeadingWhitespace(ws: string, url: string)
    requires Within(ws, Whitespace)
    ensures Parse(ws + url) == Parse(url)
  {
    LStripCharsAbsorbs(ws, url, Whitespace);
  }

  lemma ParseIgnoresTrailingWhitespace(url: string, ws: string)
    requires Within(ws, Whitespace)
    ensures Parse(url + ws) == Parse(url)
  {
    StripCharsAbsorbsTrailing(url, ws, Whitespace);
  }

  lemma SlashIsNotWhitespace()
    ensures '/' !in Whitespace
  {
  }

  /** Slashes after a non-blank end survive `strip()`. */
  lemma StripKeepsTrailingSlashes(url: string, slashes: string)
    requires Within(slashes, Slash)
    requires url == [] || url[|url| - 1] !in Whitespace
    ensures Strip(url + slashes) == Strip(url) + slashes
  {
    SlashIsNotWhitespace();
    assert slashes == [] || slashes[0] == '/';
    assert slashes == [] || slashes[|slashes| - 1] == '/';
    StripCharsAppend(url, slashes, Whitespace);
  }

  lemma NormalizeDropsTrailingSlashes(url: string, slashes: string)
    requires Within(slashes, Slash)
    requires url == [] || url[|url| - 1] !in Whitespace
    ensures Normalize(url + slashes) == Normalize(url)
  {
    StripKeepsTrailingSlashes(url, slashes);
    RStripCharsAbsorbs(Strip(url), slashes, Slash);
  }

  /** Trailing slashes never matter (after a non-blank last character). */
  lemma ParseIgnoresTrailingSlashes(url: string, slashes: string)
    requires Within(slashes, Slash)
    requires url == [] || url[|url| - 1] !in Whitespace
    ensures Parse(url + slashes) == Parse(url)
  {
    NormalizeDropsTrailingSlashes(url, slashes);
  }

  /** A string with no blank at either end and no trailing slash is already
      normalised. */
  lemma NormalizeFixed(s: string)
    requires s == [] || (s[0] !in Whitespace && s[|s| - 1] !in Whitespace && s[|s| - 1] != '/')
    ensures Normalize(s) == s
  {
    StripCharsFixed(s, Whitespace);
    RStripCharsFixed(s, Slash);
  }

  /** `owner/repo` has its only slash right after the owner. */
  lemma OneSlashOnly(owner: string, repo: string, k: nat)
    requires Avoids(owner, Slash) && Avoids(repo, Slash)
    requires k < |owner + "/" + repo| && (owner + "/" + repo)[k] == '/'
    ensures k == |owner|
  {
  }

  /** With a single slash there is no room for pattern 1, which needs two. */
  lemma NoHostMatchInOwnerRepo(owner: string, repo: string, k: nat)
    requires Avoids(owner, Slash) && Avoids(repo, Slash)
    requires k <= |owner + "/" + repo|
    ensures MatchAt(owner + "/" + repo, k).None?
  {
    var s := owner + "/" + repo;
    if MatchAt(s, k).Some? {
      var m := MatchAt(s, k).value;
      MatchAtCharacterized(s, k, m.0, m.1);
      assert s[k..k + |GithubHost|][10] == '/';
      OneSlashOnly(owner, repo, k + 10);
    }
  }

  /** Pattern 1 matches nowhere in `owner/repo`. */
  lemma NoFirstMatchInOwnerRepo(owner: string, repo: string)
    requires Avoids(owner, Slash) && Avoids(repo, Slash)
    ensures FirstMatch(owner + "/" + repo, 0).None?
  {
    var s := owner + "/" + repo;
    forall k | 0 <= k <= |s|
      ensures MatchAt(s, k).None?
    {
      NoHostMatchInOwnerRepo(owner, repo, k);
    }
  }

  /** Pattern 2 reads `owner/repo` back as its two parts. */
  lemma WholeMatchOwnerRepo(owner: string, repo: string)
    requires owner != [] && Avoids(owner, Slash)
    requires repo != [] && Avoids(repo, Slash)
    ensures WholeMatch(owner + "/" + repo) == Some((owner, repo))
  {
    var s := owner + "/" + repo;
    assert OwnerRepoShape(s, owner, repo);
    var m := WholeMatch(s).value;
    OneSlashOnly(owner, repo, |m.0|);
    assert m.0 == s[..|m.0|] == owner;
    assert m.1 == s[|m.0| + 1..] == repo;
  }

  /** `owner/repo` parses to its two parts. */
  lemma ParseOwnerRepo(owner: string, repo: string)
    requires owner != [] && Avoids(owner, Slash) && owner[0] !in Whitespace
    requires repo != [] && Avoids(repo, Slash) && repo[|repo| - 1] !in Whitespace
    ensures Parse(owner + "/" + repo) == Some((owner, repo))
  {
    var s := owner + "/" + repo;
    assert s[0] == owner[0] && s[|s| - 1] == repo[|repo| - 1];
    NormalizeFixed(s);
    NoFirstMatchInOwnerRepo(owner, repo);
    WholeMatchOwnerRepo(owner, repo);
  }

  /** Where pattern 1 matches nowhere, pattern 2 decides: the result is the
      reading of the whole normalised string as `owner/repo`, and None when
      it has no such reading. */
  lemma ParseFallsBackToWholeString(url: string)
    requires forall k, o, r | 0 <= k <= |Normalize(url)| :: !GithubMatch(Normalize(url), k, o, r)
    ensures forall o, r :: Parse(url) == Some((o, r)) <==> OwnerRepoShape(Normalize(url), o, r)
  {
    var s := Normalize(url);
    forall k | 0 <= k <= |s|
      ensures MatchAt(s, k).None?
    {
      if MatchAt(s, k).Some? {
        var m := MatchAt(s, k).value;
        MatchAtCharacterized(s, k, m.0, m.1);
      }
    }
    forall o, r | OwnerRepoShape(s, o, r)
      ensures Parse(url) == Some((o, r))
    {
      WholeMatchOwnerRepo(o, r);
    }
  }

  /** Pattern 1 cannot match where the text does not begin with `g`. */
  lemma NoHostMatchWithoutG(s: string, k: nat)
    requires k < |s| && s[k] != 'g'
    ensures MatchAt(s, k).None?
  {
  }

  /** The groups of pattern 1 right after the host in a repository URL. */
  lemma HostMatchInRepoUrl(lead: string, owner: string, repo: string, tail: string)
    requires owner != [] && Avoids(owner, Slash)
    requires repo != [] && Avoids(repo, Slash)
    requires tail == [] || tail[0] == '/'
    ensures GithubMatch(lead + GithubHost + owner + "/" + repo + tail, |lead|, owner, repo)
  {
    var s := lead + GithubHost + owner + "/" + repo + tail;
    var t := owner + "/" + repo + tail;
    assert s == lead + GithubHost + t;
    assert s[|lead|..|lead| + |GithubHost|] == GithubHost;
    assert s[|lead| + |GithubHost|..] == t;
    assert t[..|owner|] == owner;
    assert t[|owner| + 1..|owner| + 1 + |repo|] == repo;
    assert OwnerRepoPrefix(t, owner, repo);
  }

  /** A full repository URL parses to its owner and repository, whatever the
      scheme in front (if it has no `g`) and whatever path follows the
      repository name. */
  lemma ParseGithubUrl(lead: string, owner: string, repo: string, tail: string)
    requires Avoids(lead, {'g'}) && (lead == [] || lead[0] !in Whitespace)
    requires owner != [] && Avoids(owner, Slash)
    requires repo != [] && Avoids(repo, Slash)
    requires tail == [] || tail[0] == '/'
    requires var s := lead + GithubHost + owner + "/" + repo + tail;
             s[|s| - 1] !in Whitespace && s[|s| - 1] != '/'
    ensures Parse(lead + GithubHost + owner + "/" + repo + tail) == Some((owner, repo))
  {
    var s := lead + GithubHost + owner + "/" + repo + tail;
    assert s[0] !in Whitespace by {
      if lead == [] {
        assert s[0] == GithubHost[0];
      } else {
        assert s[0] == lead[0];
      }
    }
    NormalizeFixed(s);
    forall k | 0 <= k < |lead|
      ensures MatchAt(s, k).None?
    {
      assert s[k] == lead[k];
      NoHostMatchWithoutG(s, k);
    }
    HostMatchInRepoUrl(lead, owner, repo, tail);
    ParsePrefersLeftmostHostMatch(s, |lead|, owner, repo);
  }
}

=== FILE: text.dfy ===
/**
 The handful of Python string operations the faucet relies on: `strip`,
 `rstrip(chars)`, `split()` with no separator, `replace` of one character,
 `startswith`, ASCII `lower`, and the decimal rendering of integers.
 Strings are sequences of Unicode scalar values, as Python's `str` is.
 */
module Text {

  /** The characters for which Python's `str.isspace()` holds; `strip()` and
      `split()` without arguments treat exactly these as whitespace. */
  predicate IsSpace(c: char) {
    || c == '\t' || c == '\n' || c == '\U{B}' || c == '\U{C}' || c == '\r'
    || c == '\U{1C}' || c == '\U{1D}' || c == '\U{1E}' || c == '\U{1F}' || c == ' '
    || c == '\U{85}' || c == '\U{A0}' || c == '\U{1680}'
    || ('\U{2000}' <= c <= '\U{200A}')
    || c == '\U{2028}' || c == '\U{2029}' || c == '\U{202F}' || c == '\U{205F}' || c == '\U{3000}'
  }

  const Whitespace: set<char> := set c: char | IsSpace(c)

  /** Every character of `s` lies in `cs`. */
  predicate Within(s: string, cs: set<char>) {
    forall i | 0 <= i < |s| :: s[i] in cs
  }

  /** No character of `s` lies in `cs`. */
  predicate Avoids(s: string, cs: set<char>) {
    forall i | 0 <= i < |s| :: s[i] !in cs
  }

  predicate StartsWith(s: string, prefix: string) {
    |prefix| <= |s| && s[..|prefix|] == prefix
  }

  /** Python's `s.lstrip(chars)`: the longest suffix of `s` that does not
      begin with a character of `cs`. */
  function LStripChars(s: string, cs: set<char>): (r: string)
    ensures |r| <= |s| && r == s[|s| - |r|..]
    ensures r == [] || r[0] !in cs
    ensures Within(s[..|s| - |r|], cs)
  {
    if s != [] && s[0] in cs then
      var t := s[1..];
      var r := LStripChars(t, cs);
      assert r == s[|s| - |r|..] by {
        assert s[|s| - |r|..] == t[|t| - |r|..];
      }
      assert Within(s[..|s| - |r|], cs) by {
        forall i | 0 <= i < |s| - |r| ensures s[i] in cs {
          if i > 0 {
            assert s[i] == t[..|t| - |r|][i - 1];
          }
        }
      }
      r
    else
      s
  }

  /** Python's `s.rstrip(chars)`: every trailing character that belongs to the
      SET `cs` is removed; `cs` is not a suffix to be removed once. */
  function RStripChars(s: string, cs: set<char>): (r: string)
    ensures |r| <= |s| && r == s[..|r|]
    ensures r == [] || r[|r| - 1] !in cs
    ensures Within(s[|r|..], cs)
  {
    if s != [] && s[|s| - 1] in cs then
      var r := RStripChars(s[..|s| - 1], cs);
      assert s[|r|..] == s[..|s| - 1][|r|..] + [s[|s| - 1]];
      assert Within(s[|r|..], cs) by {
        forall i | |r| <= i < |s| ensures s[i] in cs {
          if i < |s| - 1 {
            assert s[i] == s[..|s| - 1][|r|..][i - |r|];
          }
        }
      }
      r
    else
      s
  }

  /** Where the text kept by `strip(chars)` begins. */
  function StripOffset(s: string, cs: set<char>): (k: nat)
    ensures k <= |s|
  {
    |s| - |LStripChars(s, cs)|
  }

  /** Python's `s.strip(chars)`: what is left once every leading and every
      trailing character of `cs` is removed; it is a contiguous piece of `s`
      flanked only by characters of `cs`. */
  function StripChars(s: string, cs: set<char>): (r: string)
    ensures StripOffset(s, cs) + |r| <= |s|
    ensures r == s[StripOffset(s, cs)..StripOffset(s, cs) + |r|]
    ensures r == [] || (r[0] !in cs && r[|r| - 1] !in cs)
    ensures Within(s[..StripOffset(s, cs)], cs) && Within(s[StripOffset(s, cs) + |r|..], cs)
  {
    var l := LStripChars(s, cs);
    var r := RStripChars(l, cs);
    var k := |s| - |l|;
    assert s[k..k + |r|] == r;
    assert s[k + |r|..] == l[|r|..];
    r
  }

  /** Trailing characters of `cs` vanish under `rstrip`, however many. */
  lemma {:induction false} RStripCharsAbsorbs(a: string, b: string, cs: set<char>)
    requires Within(b, cs)
    ensures RStripChars(a + b, cs) == RStripChars(a, cs)
    decreases |b|
  {
    if b == [] {
      assert a + b == a;
    } else {
      assert (a + b)[|a + b| - 1] == b[|b| - 1];
      assert (a + b)[..|a + b| - 1] == a + b[..|b| - 1];
      RStripCharsAbsorbs(a, b[..|b| - 1], cs);
    }
  }

  /** Leading characters of `cs` vanish under `lstrip`, however many. */
  lemma {:induction false} LStripCharsAbsorbs(a: string, b: string, cs: set<char>)
    requires Within(a, cs)
    ensures LStripChars(a + b, cs) == LStripChars(b, cs)
    decreases |a|
  {
    if a == [] {
      assert a + b == b;
    } else {
      assert (a + b)[0] == a[0];
      assert (a + b)[1..] == a[1..] + b;
      LStripCharsAbsorbs(a[1..], b, cs);
    }
  }

  /** `rstrip` leaves a string alone exactly when its last character is not
      one to strip. */
  lemma RStripCharsFixed(s: string, cs: set<char>)
    ensures RStripChars(s, cs) == s <==> s == [] || s[|s| - 1] !in cs
  {
  }

  /** Stripping never introduces a character. */
  lemma StripCharsKeepsAvoids(s: string, cs: set<char>, bad: set<char>)
    requires Avoids(s, bad)
    ensures Avoids(StripChars(s, cs), bad)
  {
    var l := LStripChars(s, cs);
    assert Avoids(l, bad);
    assert Avoids(RStripChars(l, cs), bad);
  }

  /** Once `lstrip` has reached text to keep, appending to the string only
      appends to the result. */
  lemma {:induction false} LStripCharsExtend(s: string, b: string, cs: set<char>)
    requires LStripChars(s, cs) != []
    ensures LStripChars(s + b, cs) == LStripChars(s, cs) + b
    decreases |s|
  {
    assert (s + b)[0] == s[0];
    if s[0] in cs {
      assert (s + b)[1..] == s[1..] + b;
      LStripCharsExtend(s[1..], b, cs);
    }
  }

  /** Trailing characters of `cs` vanish under `strip`, however many. */
  lemma StripCharsAbsorbsTrailing(s: string, b: string, cs: set<char>)
    requires Within(b, cs)
    ensures StripChars(s + b, cs) == StripChars(s, cs)
  {
    var l := LStripChars(s, cs);
    if l == [] {
      assert s[..|s|] == s;
      LStripCharsAbsorbs(s, b, cs);
      LStripCharsAbsorbs(b, [], cs);
      assert b + [] == b;
    } else {
      LStripCharsExtend(s, b, cs);
      RStripCharsAbsorbs(l, b, cs);
    }
  }

  /** A string that neither begins nor ends with a character of `cs` is
      left alone by `strip`. */
  lemma StripCharsFixed(s: string, cs: set<char>)
    requires s == [] || (s[0] !in cs && s[|s| - 1] !in cs)
    ensures StripChars(s, cs) == s
  {
  }

  /** `lstrip` of a concatenation, when the appended text does not begin
      with a character to strip. */
  lemma {:induction false} LStripCharsAppend(s: string, tail: string, cs: set<char>)
    requires tail == [] || tail[0] !in cs
    ensures LStripChars(s + tail, cs) == LStripChars(s, cs) + tail
    decreases |s|
  {
    if s == [] {
      assert s + tail == tail;
    } else {
      assert (s + tail)[0] == s[0];
      if s[0] in cs {
        assert (s + tail)[1..] == s[1..] + tail;
        LStripCharsAppend(s[1..], tail, cs);
      }
    }
  }

  /** Appending text that neither begins nor ends with a character of `cs`
      to a string that does not end with one commutes with `strip`. */
  lemma StripCharsAppend(s: string, tail: string, cs: set<char>)
    requires s == [] || s[|s| - 1] !in cs
    requires tail == [] || (tail[0] !in cs && tail[|tail| - 1] !in cs)
    ensures StripChars(s + tail, cs) == StripChars(s, cs) + tail
  {
    var l := LStripChars(s, cs);
    LStripCharsAppend(s, tail, cs);
    if l != [] {
      var k := |s| - |l|;
      assert l == s[k..];
      assert l[|l| - 1] == s[k + |l| - 1];
    }
    RStripCharsFixed(l, cs);
    if tail == [] {
      assert s + tail == s;
      assert l + tail == l;
    } else {
      assert (l + tail)[|l| + |tail| - 1] == tail[|tail| - 1];
      RStripCharsFixed(l + tail, cs);
    }
  }

  /** `strip` removes exactly the padding of `cs` around a string that
      neither begins nor ends with a character of `cs`. */
  lemma StripCharsPadded(a: string, s: string, b: string, cs: set<char>)
    requires Within(a, cs) && Within(b, cs)
    requires s == [] || (s[0] !in cs && s[|s| - 1] !in cs)
    ensures StripChars(a + s + b, cs) == s
  {
    assert a + s + b == a + (s + b);
    LStripCharsAbsorbs(a, s + b, cs);
    assert LStripChars(a + s + b, cs) == LStripChars(s + b, cs);
    if s == [] {
      assert s + b == b;
      RStripCharsAbsorbs([], b, cs);
      assert [] + b == b;
    } else {
      assert (s + b)[0] == s[0];
      RStripCharsAbsorbs(s, b, cs);
      RStripCharsFixed(s, cs);
    }
  }

  /** Python's `s.strip()`: leading and trailing whitespace removed. */
  function Strip(s: string): string {
    StripChars(s, Whitespace)
  }

  /** Length of the longest prefix of `s` with no character of `cs`
      (the greedy run a regular-expression class `[^cs]*` consumes). */
  function SpanAvoiding(s: string, cs: set<char>): (n: nat)
    ensures n <= |s|
    ensures Avoids(s[..n], cs)
    ensures n == |s| || s[n] in cs
  {
    if s == [] || s[0] in cs then 0
    else
      var n := 1 + SpanAvoiding(s[1..], cs);
      assert s[..n] == [s[0]] + s[1..][..n - 1];
      n
  }

  /** The span is the first position holding a character of `cs`. */
  lemma {:induction false} SpanAvoidingUnique(s: string, cs: set<char>, n: nat)
    requires n <= |s| && Avoids(s[..n], cs) && (n == |s| || s[n] in cs)
    ensures SpanAvoiding(s, cs) == n
    decreases n
  {
    if n > 0 {
      assert s[0] == s[..n][0];
      assert s[1..][..n - 1] == s[..n][1..];
      SpanAvoidingUnique(s[1..], cs, n - 1);
    }
  }

  /** The maximal runs of `s` free of characters of `cs`, in order. */
  function SplitOn(s: string, cs: set<char>): (words: seq<string>)
    ensures forall i | 0 <= i < |words| :: words[i] != [] && Avoids(words[i], cs)
    decreases |s|
  {
    var t := LStripChars(s, cs);
    if t == [] then []
    else
      var n := SpanAvoiding(t, cs);
      [t[..n]] + SplitOn(t[n..], cs)
  }

  /** Python's `s.split()` without a separator: the maximal whitespace-free
      runs of `s`, in order. */
  function Split(s: string): (words: seq<string>)
    ensures forall i | 0 <= i < |words| :: words[i] != [] && Avoids(words[i], Whitespace)
  {
    SplitOn(s, Whitespace)
  }

  /** Reference count of words: the positions that hold a non-whitespace
      character right after whitespace (or at the start, when `afterSpace`). */
  function WordStarts(s: string, afterSpace: bool): nat {
    if s == [] then 0
    else
      (if afterSpace && s[0] !in Whitespace then 1 else 0)
      + WordStarts(s[1..], s[0] in Whitespace)
  }

  lemma {:induction false} WordStartsSkipsLeadingSpace(s: string)
    ensures WordStarts(s, true) == WordStarts(LStripChars(s, Whitespace), true)
    decreases |s|
  {
    if s != [] && s[0] in Whitespace {
      WordStartsSkipsLeadingSpace(s[1..]);
    }
  }

  lemma {:induction false} WordStartsInsideWord(u: string, k: nat)
    requires k <= |u| && Avoids(u[..k], Whitespace)
    ensures WordStarts(u, false) == WordStarts(u[k..], false)
    decreases k
  {
    if k > 0 {
      assert u[0] == u[..k][0];
      assert u[1..][..k - 1] == u[..k][1..];
      WordStartsInsideWord(u[1..], k - 1);
      assert u[1..][k - 1..] == u[k..];
    }
  }

  /** A word that starts `t` contributes one start, and the rest of the count
      comes from what follows the word. */
  lemma WordStartsOfLeadingWord(t: string)
    requires t != [] && t[0] !in Whitespace
    ensures WordStarts(t, true) == 1 + WordStarts(t[SpanAvoiding(t, Whitespace)..], true)
  {
    var n := SpanAvoiding(t, Whitespace);
    assert t[1..][..n - 1] == t[1..n] == t[..n][1..];
    WordStartsInsideWord(t[1..], n - 1);
    assert t[1..][n - 1..] == t[n..];
    var u := t[n..];
    if u != [] {
      assert u[0] in Whitespace;
    }
  }

  /** `split()` yields exactly as many words as there are word starts. */
  lemma {:induction false} SplitCountsWordStarts(s: string)
    ensures |Split(s)| == WordStarts(s, true)
    decreases |s|
  {
    WordStartsSkipsLeadingSpace(s);
    var t := LStripChars(s, Whitespace);
    if t != [] {
      var n := SpanAvoiding(t, Whitespace);
      SplitCountsWordStarts(t[n..]);
      WordStartsOfLeadingWord(t);
    }
  }

  /** Python's `s.replace(a, b)` for single characters. */
  function ReplaceChar(s: string, a: char, b: char): (r: string)
    ensures |r| == |s|
    ensures forall i | 0 <= i < |s| :: r[i] == (if s[i] == a then b else s[i])
  {
    seq(|s|, i requires 0 <= i < |s| => if s[i] == a then b else s[i])
  }

  /** Python's `str.lower()` restricted to the ASCII letters. */
  function LowerAscii(s: string): (r: string)
    ensures |r| == |s|
  {
    seq(|s|, i requires 0 <= i < |s| =>
      if 'A' <= s[i] <= 'Z' then (s[i] as int + 32) as char else s[i])
  }

  function DigitChar(d: nat): (c: char)
    requires d < 10
    ensures '0' <= c <= '9'
  {
    ('0' as int + d) as char
  }

  predicate AllDigits(s: string) {
    forall i | 0 <= i < |s| :: '0' <= s[i] <= '9'
  }

  /** Python's `str(n)` for a non-negative integer. */
  function NatToString(n: nat): (s: string)
    ensures s != [] && AllDigits(s)
    decreases n
  {
    if n < 10 then [DigitChar(n)] else NatToString(n / 10) + [DigitChar(n % 10)]
  }

  /** Python's `str(i)` for any integer. */
  function IntToString(i: int): (s: string)
    ensures s != []
  {
    if i < 0 then "-" + NatToString(-i) else NatToString(i)
  }

  /** The number a string of decimal digits denotes; the partner of `NatToString`. */
  function DigitsValue(s: string): nat
    requires AllDigits(s)
  {
    if s == [] then 0 else 10 * DigitsValue(s[..|s| - 1]) + (s[|s| - 1] as int - '0' as int)
  }

  lemma {:induction false} NatToStringRoundTrip(n: nat)
    ensures DigitsValue(NatToString(n)) == n
    decreases n
  {
    if n >= 10 {
      NatToStringRoundTrip(n / 10);
      var s := NatToString(n);
      assert s[..|s| - 1] == NatToString(n / 10);
    }
  }
}

=== FILE: treasury.dfy ===
/**
 The custody side of the payout server: how the configured secret is read
 (`_derive_account`) and the gates of one transfer (`_send_tbnb`). Key
 derivation, signing and the chain's RPC calls are not modelled; each RPC
 step is an input that either answers or raises.
 */
module Treasury {
  import opened Common
  import opened Text

  /** The two readings of the secret: a recovery phrase (as normalised) or a
      raw private key (the secret stripped, commas kept). */
  datatype SecretForm = Mnemonic(phrase: string) | RawKey(key: string)

  /** Fewest tokens for the secret to be read as a recovery phrase. */
  const MnemonicMinWords: nat := 12

  /** `secret.replace(",", " ").strip()`. */
  function NormalizeSecret(secret: string): string {
    Strip(ReplaceChar(secret, ',', ' '))
  }

  /** `_derive_account`'s choice of reading. The second test of the source,
      that every token is non-empty, is kept; `NonEmptyTokensTestIsRedundant`
      shows it never decides anything. */
  function DeriveAccount(secret: string): (f: SecretForm)
    ensures f.Mnemonic? <==> WordStarts(ReplaceChar(secret, ',', ' '), true) >= MnemonicMinWords
    ensures f.Mnemonic? ==> f.phrase == NormalizeSecret(secret)
    ensures f.RawKey? ==> f.key == Strip(secret)
  {
    var normalized := NormalizeSecret(secret);
    var words := Split(normalized);
    SplitCountsWordStarts(normalized);
    StripKeepsWordStarts(ReplaceChar(secret, ',', ' '));
    if |words| >= MnemonicMinWords && forall i | 0 <= i < |words| :: words[i] != [] then
      Mnemonic(normalized)
    else
      RawKey(Strip(secret))
  }

  /** Stripping whitespace from both ends never changes the number of words. */
  lemma StripKeepsWordStarts(s: string)
    ensures WordStarts(Strip(s), true) == WordStarts(s, true)
  {
    var l := LStripChars(s, Whitespace);
    WordStartsSkipsLeadingSpace(s);
    RStripKeepsWordStarts(l, |l| - |Strip(s)|, true);
  }

  lemma {:induction false} RStripKeepsWordStarts(s: string, k: nat, afterSpace: bool)
    requires k <= |s| && Within(s[|s| - k..], Whitespace)
    ensures WordStarts(s[..|s| - k], afterSpace) == WordStarts(s, afterSpace)
    decreases |s|
  {
    if s != [] {
      if k == |s| {
        TrailingSpaceHasNoStarts(s, afterSpace);
      } else {
        assert s[1..][|s| - 1 - k..] == s[|s| - k..];
        RStripKeepsWordStarts(s[1..], k, s[0] in Whitespace);
        assert s[..|s| - k][1..] == s[1..][..|s| - 1 - k];
      }
    }
  }

  lemma {:induction false} TrailingSpaceHasNoStarts(s: string, afterSpace: bool)
    requires Within(s, Whitespace)
    ensures WordStarts(s, afterSpace) == 0
    decreases |s|
  {
    if s != [] {
      TrailingSpaceHasNoStarts(s[1..], true);
    }
  }

  /** `all(normalized.split())` always holds, since `split()` never yields
      an empty token. */
  lemma NonEmptyTokensTestIsRedundant(secret: string)
    ensures forall i | 0 <= i < |Split(NormalizeSecret(secret))| :: Split(NormalizeSecret(secret))[i] != []
  {
  }

  /** Twelve comma-separated words are a recovery phrase: commas count as
      separators. */
  lemma CommaSeparatedPhrase(secret: string)
    requires WordStarts(ReplaceChar(secret, ',', ' '), true) >= MnemonicMinWords
    ensures DeriveAccount(secret).Mnemonic?
    ensures ',' !in DeriveAccount(secret).phrase
  {
    var r := ReplaceChar(secret, ',', ' ');
    assert Avoids(r, {','});
    StripCharsKeepsAvoids(r, Whitespace, {','});
  }

  /** A secret with no whitespace and no comma in it, such as a hex private
      key, is read as a raw key. */
  lemma HexKeyIsRawKey(secret: string)
    requires Avoids(secret, Whitespace + {','})
    ensures DeriveAccount(secret).RawKey?
  {
    var r := ReplaceChar(secret, ',', ' ');
    assert r == secret;
    if secret != [] {
      assert secret[..1] == [secret[0]];
      WordStartsInsideWord(secret[1..], |secret| - 1);
      assert secret[1..][..|secret| - 1] == secret[1..];
    }
  }

  /** One step `_send_tbnb` performs against the chain or the key. */
  datatype ChainStep = Checksum | NonceQuery | GasPriceQuery | Sign | Submit | AwaitReceipt

  /** What each RPC step produced: a value, or the text of the exception. */
  datatype ChainReplies = ChainReplies(
    checksum: Result<string>,
    nonce: Result<int>,
    gasPrice: Result<int>,
    sign: Result<string>,
    submit: Result<string>,
    receiptStatus: Result<int>)

  /** Outcome of `_send_tbnb`: the transaction hash or the exception's text,
      with the steps performed, in order. */
  datatype Transfer = Transfer(result: Result<string>, steps: seq<ChainStep>)

  const NonPositiveAmountError: string := "DEFAULT_PAYOUT_AMOUNT must be positive."
  const ReceiptFailedError: string := "On-chain transfer failed."

  /** `_send_tbnb`: checksum the address, refuse a non-positive value, read the
      nonce and gas price, sign, submit, wait for the receipt, and accept only
      a receipt whose status is 1. */
  function SendTbnb(valueWei: int, chain: ChainReplies): (t: Transfer)
    ensures t.result.Ok? ==> valueWei > 0 && chain.sign.Ok? && chain.submit == Ok(t.result.value)
                             && chain.receiptStatus == Ok(1)
    ensures t.result.Ok? <==> AwaitReceipt in t.steps && chain.receiptStatus == Ok(1)
    ensures Submit in t.steps ==> |t.steps| >= 5 && t.steps[..4] == [Checksum, NonceQuery, GasPriceQuery, Sign]
    ensures forall i, j | 0 <= i < j < |t.steps| :: t.steps[i] != t.steps[j]
    ensures Sign in t.steps ==> valueWei > 0 && chain.checksum.Ok? && chain.nonce.Ok? && chain.gasPrice.Ok?
    ensures Submit in t.steps ==> chain.sign.Ok?
    ensures && valueWei > 0 && chain.checksum.Ok? && chain.nonce.Ok? && chain.gasPrice.Ok?
            && chain.sign.Ok? && chain.submit.Ok? && chain.receiptStatus == Ok(1)
            ==> t.result == Ok(chain.submit.value)
    ensures t.result.Ok? ==> t.steps == [Checksum, NonceQuery, GasPriceQuery, Sign, Submit, AwaitReceipt]
    ensures chain.checksum.Err? ==> t == Transfer(Err(chain.checksum.error), [Checksum])
    ensures chain.checksum.Ok? && valueWei > 0 && chain.nonce.Err? ==>
              t == Transfer(Err(chain.nonce.error), [Checksum, NonceQuery])
    ensures chain.checksum.Ok? && valueWei > 0 && chain.nonce.Ok? && chain.gasPrice.Err? ==>
              t == Transfer(Err(chain.gasPrice.error), [Checksum, NonceQuery, GasPriceQuery])
  {
    if chain.checksum.Err? then Transfer(Err(chain.checksum.error), [Checksum])
    else if valueWei <= 0 then Transfer(Err(NonPositiveAmountError), [Checksum])
    else if chain.nonce.Err? then Transfer(Err(chain.nonce.error), [Checksum, NonceQuery])
    else if chain.gasPrice.Err? then Transfer(Err(chain.gasPrice.error), [Checksum, NonceQuery, GasPriceQuery])
    else if chain.sign.Err? then Transfer(Err(chain.sign.error), [Checksum, NonceQuery, GasPriceQuery, Sign])
    else
      var signed := [Checksum, NonceQuery, GasPriceQuery, Sign, Submit];
      if chain.submit.Err? then Transfer(Err(chain.submit.error), signed)
      else
        var all := signed + [AwaitReceipt];
        match chain.receiptStatus
        case Err(e) => Transfer(Err(e), all)
        case Ok(status) =>
          if status != 1 then Transfer(Err(ReceiptFailedError), all)
          else Transfer(Ok(chain.submit.value), all)
  }

  /** A non-positive amount is refused before the nonce is read, anything is
      signed or anything is submitted. */
  lemma NonPositiveRefusedBeforeSigning(valueWei: int, chain: ChainReplies)
    requires valueWei <= 0
    ensures SendTbnb(valueWei, chain).result.Err?
    ensures SendTbnb(valueWei, chain).steps == [Checksum]
    ensures chain.checksum.Ok? ==> SendTbnb(valueWei, chain).result.error == NonPositiveAmountError
  {
  }

  /** A key that fails to sign ends the transfer with the signer's error,
      before anything is submitted. */
  lemma FailedSigningSubmitsNothing(valueWei: int, chain: ChainReplies)
    requires valueWei > 0 && chain.checksum.Ok? && chain.nonce.Ok? && chain.gasPrice.Ok?
    requires chain.sign.Err?
    ensures SendTbnb(valueWei, chain).result == Err(chain.sign.error)
    ensures SendTbnb(valueWei, chain).steps == [Checksum, NonceQuery, GasPriceQuery, Sign]
  {
  }

  /** A transaction that was submitted and mined with a failed status is an
      error, although it reached the chain. */
  lemma FailedReceiptIsError(valueWei: int, chain: ChainReplies)
    requires valueWei > 0 && chain.checksum.Ok? && chain.nonce.Ok? && chain.gasPrice.Ok?
    requires chain.sign.Ok? && chain.submit.Ok? && chain.receiptStatus.Ok? && chain.receiptStatus.value != 1
    ensures SendTbnb(valueWei, chain).result == Err(ReceiptFailedError)
    ensures Submit in SendTbnb(valueWei, chain).steps
  {
  }
}

=== FILE: verifier.dfy ===
/**
 The eligibility verifier of the verification service (`verify_builder` and
 the `/verify` endpoint). The GitHub user lookup is an input: the model takes
 the reply the service would have received, so the verifier is a total
 function of that reply, the rate-limit store and the current time.
 */
module Verifier {
  import opened Common
  import opened Text
  import opened PayoutStore

  /** The fields of GitHub's user record the verifier reads. `publicRepos` is
      `None` when the key is missing (read as 0); `createdAt` is `None` when
      the key is missing or empty (the age gate is then skipped). */
  datatype GitHubUser = GitHubUser(id: Option<int>, publicRepos: Option<int>, createdAt: Option<int>)

  /** What `GET /users/{name}` produced: an exception from the HTTP client, or
      a reply with a status code and (when the status is 200) a user record. */
  datatype Lookup = Unreachable(error: string) | Responded(status: int, user: GitHubUser)

  /** `VerificationResponse`; `confidence` is in hundredths (0.95 is 95). */
  datatype Verdict = Verdict(
    wallet: string,
    verified: bool,
    confidence: nat,
    reason: string,
    githubUserId: Option<int>,
    repoCount: Option<int>,
    accountAgeDays: Option<int>)

  /** The `/verify` endpoint's answer: a verdict, or HTTP 400. */
  datatype VerifyResponse = Verdicted(verdict: Verdict) | BadRequest(detail: string)

  const MinRepos: int := 1
  const MinAgeDays: int := 30
  const SecondsPerDay: int := 24 * 60 * 60
  const PassedReason: string := "All verification checks passed"
  const NoReposReason: string := "No public repositories"
  const MissingUsernameDetail: string := "github_username is required for verification"

  function RepoCount(u: GitHubUser): int {
    u.publicRepos.GetOr(0)
  }

  /** `timedelta.days` of `now - createdAt`: whole days, rounded toward minus
      infinity, so a creation time in the future gives a negative age. */
  function AgeDays(now: int, createdAt: int): (d: int)
    ensures d * SecondsPerDay <= now - createdAt < (d + 1) * SecondsPerDay
  {
    (now - createdAt) / SecondsPerDay
  }

  /** `min(1.0, 0.7 + 0.05 * repo_count)` in hundredths. */
  function Confidence(repos: int): (c: nat)
    requires repos >= MinRepos
    ensures 75 <= c <= 100
    ensures c < 100 <==> repos < 6
    ensures repos < 6 ==> c == 70 + 5 * repos
  {
    if 70 + 5 * repos < 100 then 70 + 5 * repos else 100
  }

  /** More public repositories never lower the confidence. */
  lemma ConfidenceMonotone(a: int, b: int)
    requires MinRepos <= a <= b
    ensures Confidence(a) <= Confidence(b)
  {
  }

  /** The reason given for an account younger than 30 days. */
  function TooNewReason(days: int): string {
    "Account too new (" + IntToString(days) + " days, need 30+)"
  }

  function NotFoundReason(status: int): string {
    "GitHub account not found (status: " + IntToString(status) + ")"
  }

  function UnreachableReason(error: string): string {
    "Failed to reach GitHub API: " + error
  }

  /** The account age the verdict reports: unknown without a creation time. */
  function ReportedAge(u: GitHubUser, now: int): Option<int> {
    match u.createdAt
    case None => None
    case Some(c) => Some(AgeDays(now, c))
  }

  /** The profile gates: the lookup returned 200, the user has a public
      repository, and the account is old enough or its age is unknown. */
  predicate PassesProfile(lookup: Lookup, now: int) {
    && lookup.Responded?
    && lookup.status == 200
    && RepoCount(lookup.user) >= MinRepos
    && (lookup.user.createdAt.None? || AgeDays(now, lookup.user.createdAt.value) >= MinAgeDays)
  }

  /** Reference definition of eligibility: every gate passes, whatever order
      they are checked in. */
  predicate Eligible(lookup: Lookup, store: Store, now: int) {
    && PassesProfile(lookup, now)
    && (lookup.user.id.None? || lookup.user.id.value !in store
        || now - store[lookup.user.id.value] >= CooldownSeconds)
  }

  /** `verify_builder`: the gates in order, the first failure decides. */
  function VerifyBuilder(lookup: Lookup, store: Store, now: int, wallet: string): (v: Verdict)
    ensures v.wallet == wallet
    ensures v.verified <==> Eligible(lookup, store, now)
    ensures !v.verified ==> v.confidence == 0
    ensures v.verified ==> v.reason == PassedReason && v.confidence == Confidence(RepoCount(lookup.user))
    ensures v.verified ==> && v.githubUserId == lookup.user.id
                           && v.repoCount == Some(RepoCount(lookup.user))
                           && v.accountAgeDays == ReportedAge(lookup.user, now)
  {
    match lookup
    case Unreachable(error) =>
      Verdict(wallet, false, 0, UnreachableReason(error), None, None, None)
    case Responded(status, user) =>
      if status != 200 then
        Verdict(wallet, false, 0, NotFoundReason(status), None, None, None)
      else
        var repos := RepoCount(user);
        if repos < MinRepos then
          Verdict(wallet, false, 0, NoReposReason, user.id, Some(0), None)
        else
          var age := ReportedAge(user, now);
          if age.Some? && age.value < MinAgeDays then
            Verdict(wallet, false, 0, TooNewReason(age.value), user.id, Some(repos), age)
          else
            var (canCollect, message) := CanCollect(store, user.id, now);
            if !canCollect then
              Verdict(wallet, false, 0, message.GetOr(RateLimitPrefix), user.id, Some(repos), age)
            else
              Verdict(wallet, true, Confidence(repos), PassedReason, user.id, Some(repos), age)
  }

  /** Each failed gate names itself in the reason, in gate order, and reports
      what was known when it failed: nothing after a failed lookup; the user
      id and the repository count afterwards; the account age from the age
      gate on. */
  lemma DenialReasons(lookup: Lookup, store: Store, now: int, wallet: string)
    ensures lookup.Unreachable? ==>
              var v := VerifyBuilder(lookup, store, now, wallet);
              v.reason == UnreachableReason(lookup.error)
              && v.githubUserId.None? && v.repoCount.None? && v.accountAgeDays.None?
    ensures lookup.Responded? && lookup.status != 200 ==>
              var v := VerifyBuilder(lookup, store, now, wallet);
              v.reason == NotFoundReason(lookup.status)
              && v.githubUserId.None? && v.repoCount.None? && v.accountAgeDays.None?
    ensures lookup.Responded? && lookup.status == 200 && RepoCount(lookup.user) < MinRepos ==>
              var v := VerifyBuilder(lookup, store, now, wallet);
              v.reason == NoReposReason && v.githubUserId == lookup.user.id
              && v.repoCount == Some(0) && v.accountAgeDays.None?
    ensures lookup.Responded? && lookup.status == 200 && RepoCount(lookup.user) >= MinRepos
            && lookup.user.createdAt.Some? && AgeDays(now, lookup.user.createdAt.value) < MinAgeDays ==>
              var d := AgeDays(now, lookup.user.createdAt.value);
              var v := VerifyBuilder(lookup, store, now, wallet);
              v.reason == TooNewReason(d) && v.githubUserId == lookup.user.id
              && v.repoCount == Some(RepoCount(lookup.user)) && v.accountAgeDays == Some(d)
    ensures PassesProfile(lookup, now) && !Eligible(lookup, store, now) ==>
              var v := VerifyBuilder(lookup, store, now, wallet);
              StartsWith(v.reason, RateLimitPrefix) && v.githubUserId == lookup.user.id
              && v.repoCount == Some(RepoCount(lookup.user))
              && v.accountAgeDays == ReportedAge(lookup.user, now)
  {
  }

  /** No denial reason can be mistaken for the single positive reason. */
  lemma PassedReasonOnlyWhenVerified(lookup: Lookup, store: Store, now: int, wallet: string)
    ensures VerifyBuilder(lookup, store, now, wallet).reason == PassedReason
            <==> VerifyBuilder(lookup, store, now, wallet).verified
  {
    var v := VerifyBuilder(lookup, store, now, wallet);
    if !v.verified {
      match lookup
      case Unreachable(e) =>
        assert v.reason[0] == 'F';
      case Responded(status, user) =>
        if status != 200 {
          assert v.reason[0] == 'G';
        } else if RepoCount(user) < MinRepos {
          assert v.reason[0] == 'N';
        } else if user.createdAt.Some? && AgeDays(now, user.createdAt.value) < MinAgeDays {
          assert v.reason[1] == 'c';
        } else {
          assert v.reason[..|RateLimitPrefix|] == RateLimitPrefix;
          assert v.reason[0] == 'R';
        }
    }
  }

  /** The store is read only at the last gate: while an earlier gate fails,
      the verdict is the same whatever the store holds. */
  lemma StoreReadOnlyAtCooldownGate(lookup: Lookup, s1: Store, s2: Store, now: int, wallet: string)
    requires !PassesProfile(lookup, now)
    ensures VerifyBuilder(lookup, s1, now, wallet) == VerifyBuilder(lookup, s2, now, wallet)
  {
  }

  /** A user without public repositories is refused before the account age,
      the store or the clock is consulted. */
  lemma NoReposShortCircuits(u: GitHubUser, created: Option<int>, s1: Store, s2: Store,
                             now1: int, now2: int, wallet: string)
    requires RepoCount(u) < MinRepos
    ensures VerifyBuilder(Responded(200, u), s1, now1, wallet)
            == VerifyBuilder(Responded(200, u.(createdAt := created)), s2, now2, wallet)
  {
  }

  /** A failed lookup is refused before anything else is consulted. */
  lemma LookupFailureShortCircuits(lookup: Lookup, s1: Store, s2: Store, now1: int, now2: int, wallet: string)
    requires lookup.Unreachable? || lookup.status != 200
    ensures VerifyBuilder(lookup, s1, now1, wallet) == VerifyBuilder(lookup, s2, now2, wallet)
    ensures VerifyBuilder(lookup, s1, now1, wallet).githubUserId.None?
  {
  }

  /** A record without a creation time skips the age gate: the account's age
      is reported as unknown and never causes a denial. */
  lemma MissingCreationSkipsAgeGate(u: GitHubUser, store: Store, now: int, wallet: string)
    requires u.createdAt.None? && RepoCount(u) >= MinRepos
    ensures VerifyBuilder(Responded(200, u), store, now, wallet).accountAgeDays.None?
    ensures VerifyBuilder(Responded(200, u), store, now, wallet).verified
            <==> CanCollect(store, u.id, now).0
  {
  }

  /** A record without an id is never rate limited: the store has no row
      whose key equals NULL. */
  lemma MissingIdNeverRateLimited(u: GitHubUser, store: Store, now: int, wallet: string)
    requires u.id.None?
    ensures VerifyBuilder(Responded(200, u), store, now, wallet).verified
            <==> PassesProfile(Responded(200, u), now)
  {
  }

  /** The `/verify` endpoint: an empty username is refused with HTTP 400
      before any lookup; otherwise the verdict of `verify_builder`. */
  function VerifyWallet(username: string, wallet: string, lookup: Lookup, store: Store, now: int): (r: VerifyResponse)
    ensures r.BadRequest? <==> username == []
    ensures r.BadRequest? ==> r.detail == MissingUsernameDetail
    ensures r.Verdicted? ==> r.verdict.wallet == wallet
                             && (r.verdict.verified <==> Eligible(lookup, store, now))
  {
    if username == [] then BadRequest(MissingUsernameDetail)
    else Verdicted(VerifyBuilder(lookup, store, now, wallet))
  }
}
